=== FILE: README.md ===
# I2C master over DMA: a Dafny model of `I2CMasterDma`

This project models the asynchronous I2C master driver of
`src/i2c/dma.rs`. The driver lends its two DMA streams to non-blocking
`write_dma`, `read_dma` and `write_read_dma` transactions, advances them
from the DMA interrupt (`handle_dma_interrupt`) and the I2C error
interrupt (`handle_error_interrupt`), and reports the end of each
transaction through a single-shot completion callback.

The driver is modelled as a deterministic state machine:

- `DmaDriver.Driver` is the driver state. It holds the optional callback,
  the address and receive length remembered for the restart of a
  write-then-read, and one resource slot per direction.
- `Slots.Slot` is one direction's resources. Either the endpoint and the
  stream are at home, or a live transfer owns them.
- Every entry point and interrupt handler is a pure function. It takes
  the state and the hardware inputs of that call, and returns the new
  state, the actions performed (`I2cTypes.Action`) and the returned value.
- The hardware inputs are the busy bit, the DMA stream flags, the outcome
  each bus-sequencing wait ends with (`BusSequencing.BusReplies`), the
  error flags the error interrupt reads (`DmaDriver.HandleErrorInterrupt`'s
  `flags`), and the outcome of the underlying blocking driver
  (`DmaDriver.BlockingTransfer`'s `underlying`).
- A Rust panic (`assert!`, or `unwrap` of an absent value) ends a step in
  `Panicked`.
- `DriverRuns.Run` feeds a sequence of calls and interrupts to the
  driver. Each handler call is one atomic step.

Modules:

- `I2cTypes` (types.dfy): error kinds, callback results, actions, and
  counting callback invocations in a trace.
- `Slots` (slots.dfy): ownership of the endpoint and the stream per
  direction.
- `BusSequencing` (bus.dfy): START, the address byte, and the write and
  read preparations.
- `DmaDriver` (driver.dfy): the driver state, finalisation, the entry
  points, the interrupt handlers and the blocking wrappers.
- `DriverRuns` (runs.dfy): whole runs, the callback budget, the
  invariant, and facts about single events of any kind.
- `HandlerProperties` (handlers.dfy): properties of individual handler
  branches, and the restart hazard.
- `Scenarios` (scenarios.dfy): concrete transactions from the state
  `use_dma` creates, with exact action traces.

Two behaviours of the code are worth knowing; the model follows the code:

- On the success paths, the callback runs before STOP is issued. Both
  transmit complete without a pending read and receive complete call
  `finish_transfer_with_result` first, then `send_stop`.
- An address NACK in `read_dma` is seen while `send_address` waits, so
  `read_dma` itself finalises and returns the NACK. The error interrupt
  is not involved.

## Model

| member | source | states |
|---|---|---|
| I2cTypes.NackAddr | src/i2c/dma.rs:301-309 | an error seen while waiting for the address acknowledgment keeps its kind, and a NACK of unknown origin becomes an address NACK |
| Slots.Create | src/i2c/dma.rs:171-187 | a new transfer takes the slot's endpoint and stream and the buffer, unstarted, and the slot no longer holds them |
| Slots.Destroy | src/i2c/dma.rs:189-195 | releasing a transfer returns its endpoint and stream to the slot, which is then idle |
| Slots.Start | src/i2c/dma.rs:415 | starting marks the transfer started and leaves where the endpoint and stream are |
| Slots.CreateThenDestroy | src/i2c/dma.rs:171-195 | creating a transfer on an idle slot and then destroying it gives back the same endpoint and stream |
| Slots.DestroyThenCreate | src/i2c/dma.rs:189-213 | destroying an unstarted transfer and creating one over the same buffer gives back the same transfer |
| Slots.StartThenDestroy | src/i2c/dma.rs:415 | starting a transfer does not change what releasing it hands back |
| DmaDriver.UseDma | src/i2c/dma.rs:88-115 | the converted driver holds both endpoints and the given streams at home, no callback, and address and receive length zero, so it satisfies the invariant and is ready for a transaction |
| DmaDriver.Inv | src/i2c/dma.rs:144-150 | each direction's endpoint and stream are either at home or owned by a transfer; a callback is held only while a transfer exists; a transmit transfer exists only started; an unstarted receive transfer waits only behind a transmit transfer |
| DmaDriver.CallCallbackOnce | src/i2c/dma.rs:165-169 | the callback is taken out; it is invoked exactly once with the given result if one was held, otherwise nothing happens |
| DmaDriver.CreateTransfer | src/i2c/dma.rs:171-187 | the endpoint and the stream move into a new unstarted transfer over the buffer; the other slot and the callback are unchanged |
| DmaDriver.DestroyTransfer | src/i2c/dma.rs:189-195 | the transfer's endpoint and stream return home; the other slot is unchanged |
| DmaDriver.CreateThenDestroyTransfer | src/i2c/dma.rs:171-221 | on either side, create then destroy restores the whole driver |
| DmaDriver.StartTransfer | src/i2c/dma.rs:544 | the started side's transfer is the same transfer, now marked started, and its endpoint and stream fields stay as they were; the other side, the callback and the restart parameters are unchanged |
| BusSequencing.AddressByte | src/i2c/dma.rs:292-298 | the address byte is below 512, its upper bits are the address and bit 0 is set exactly for a read |
| BusSequencing.AddressByteRoundTrip | src/i2c/dma.rs:292-298 | decoding the byte gives back the address and the direction |
| BusSequencing.DecodeAddressByteRoundTrip | src/i2c/dma.rs:292-298 | every value below 512 is the address byte of the address and direction decoded from it |
| BusSequencing.AddressByteInjective | src/i2c/dma.rs:292-298 | distinct address/direction pairs give distinct bytes |
| BusSequencing.SendStart | src/i2c/dma.rs:257-283 | START comes first, ACK is armed exactly for a read, and the result is the outcome of the waits |
| BusSequencing.SendAddress | src/i2c/dma.rs:289-315 | the address byte is written, and a failed wait is reported through the NACK reclassification |
| BusSequencing.PrepareWrite | src/i2c/dma.rs:317-331 | succeeds exactly when both waits succeed, otherwise reports the first failure; calls no callback, starts nothing, never stops the bus |
| BusSequencing.PrepareRead | src/i2c/dma.rs:334-353 | the same outcome rule as the write preparation, with the same quietness |
| BusSequencing.PrepareWriteOrder | src/i2c/dma.rs:317-331 | a write preparation never touches ACK; on success its trace is START, write address, ADDR clear, error interrupts on |
| BusSequencing.PrepareReadOrder | src/i2c/dma.rs:334-353 | on success: START, ACK, read address; ACK is cleared exactly for a length of at most one, always before ADDR is cleared; error interrupts are enabled last |
| BusSequencing.PrepareReadFailureOrder | src/i2c/dma.rs:334-340 | a failed read preparation stops after START/ACK or the address, before clearing ACK, clearing ADDR or enabling error interrupts |
| DmaDriver.FinishTransferWithResult | src/i2c/dma.rs:355-372 | afterwards no transfer is alive and no callback is held; slots that had one owner are idle; the held callback is invoked once; STOP is issued exactly for a NACK result; no transfer is started |
| DmaDriver.StopPrefix | src/i2c/dma.rs:356-361 | finalisation first disables DMA requests, then error interrupts, and issues STOP exactly for a NACK result; none of it calls a callback or starts a transfer |
| DmaDriver.ReleaseTransfers | src/i2c/dma.rs:365-371 | afterwards neither slot holds a transfer; each transfer hands back its own endpoint and stream, a slot without a transfer is untouched, and the callback and restart parameters are untouched |
| DmaDriver.FinishOrder | src/i2c/dma.rs:355-365 | for any driver, DMA requests and then error interrupts are disabled first; when a callback is held it gets exactly the given result, after any STOP, and is the last recorded action |
| DmaDriver.FinishKeepsRestartParameters | src/i2c/dma.rs:355-372 | finalisation does not touch the remembered address and receive length |
| DmaDriver.BusyRes | src/i2c/dma.rs:229-235 | `WouldBlock` exactly when the bus is busy, never another error |
| DmaDriver.Launch | src/i2c/dma.rs:537-545 | a failed preparation is finalised with its error and returned; a successful one starts the first transfer and calls no callback |
| DmaDriver.LaunchFailureInvokes | src/i2c/dma.rs:537-541 | after a failed preparation the callback is called with that error and nothing else |
| DmaDriver.WriteDma | src/i2c/dma.rs:523-546 | busy gives `WouldBlock` with no effect; a missing endpoint or stream panics; otherwise `Ok` exactly when both waits succeed, the callback budget holds and the invariant is kept |
| DmaDriver.WriteDmaStarts | src/i2c/dma.rs:523-546 | on success the transmit transfer over the bytes is started, the new callback is held, and the exact action trace is given |
| DmaDriver.WriteDmaFails | src/i2c/dma.rs:537-541 | on failure the preparation error is returned, no transfer is alive and no callback is held, the callback got that error and nothing else, STOP is issued exactly for a NACK, and nothing was started |
| DmaDriver.ReadDma | src/i2c/dma.rs:562-588 | the same contract as the write entry point, for the receive slot |
| DmaDriver.ReadDmaStarts | src/i2c/dma.rs:562-588 | on success the trace is exactly: enable DMA requests, the read sequence for `addr` (START, ACK, the read address byte of `addr`, ACK cleared before the ADDR flag is cleared exactly for a buffer of at most one byte, error interrupts on), then the receive transfer over the buffer is started last |
| DmaDriver.ReadDmaFails | src/i2c/dma.rs:578-582 | on failure the preparation error is returned and the transaction is finalised with it |
| DmaDriver.WriteReadDma | src/i2c/dma.rs:603-632 | the same contract as the write entry point, and the receive transfer is never started by the call itself |
| DmaDriver.WriteReadDmaStarts | src/i2c/dma.rs:603-632 | on success only the transmit transfer is started, the receive transfer waits unstarted, and the address and length are remembered |
| DmaDriver.WriteReadDmaFails | src/i2c/dma.rs:622-626 | on failure both transfers are released, the callback got the error, and nothing was started |
| DmaDriver.TxComplete | src/i2c/dma.rs:393-421 | transmit complete panics exactly when a read is pending and its preparation fails; otherwise the callback budget and the invariant hold |
| DmaDriver.WriteDone | src/i2c/dma.rs:400-418 | a plain write ends with nothing alive and no callback held, the callback called once, and the trace ending in BTF wait and STOP |
| DmaDriver.WriteDoneOrder | src/i2c/dma.rs:400-418 | the write's callback gets success and nothing else, before STOP; nothing is started |
| DmaDriver.RestartForRead | src/i2c/dma.rs:405-415 | the restart panics exactly when the read preparation fails; otherwise the receive transfer is started and no callback is called |
| DmaDriver.StartPreparedRead | src/i2c/dma.rs:411-415 | after a failed preparation the step panics once the callback has been charged; after a successful one the receive transfer is started |
| DmaDriver.RestartHeadQuiet | src/i2c/dma.rs:394-406 | clearing the transmit flag and waiting for BTF call no callback, start nothing and do not stop the bus |
| DmaDriver.RestartForReadCorrected | src/i2c/dma.rs:411-415 | the restart with the unwrap guarded: after a failed preparation nothing is alive, no callback is held, both slots are idle and the callback was called once; after a successful one the receive transfer is started |
| DmaDriver.TxCompleteCorrected | src/i2c/dma.rs:393-421 | transmit complete on top of the corrected restart never panics and keeps the callback budget and the invariant |
| DmaDriver.HandleDmaInterruptCorrected | src/i2c/dma.rs:376-455 | the DMA interrupt with the corrected restart never panics and keeps the callback budget and the invariant |
| DmaDriver.RxComplete | src/i2c/dma.rs:444-453 | receive complete ends the transaction with the callback called once, then ACK cleared and STOP last |
| DmaDriver.RxCompleteOrder | src/i2c/dma.rs:444-453 | the read's callback gets success and nothing else, before STOP |
| DmaDriver.TransferFailed | src/i2c/dma.rs:385-391 | a transfer error ends the transaction without STOP and without starting a transfer, and the held callback is called with `TransferError` and nothing else |
| DmaDriver.HandleDmaInterrupt | src/i2c/dma.rs:376-455 | panics exactly on transmit complete with a pending read whose preparation fails; otherwise the callback budget and the invariant hold |
| DmaDriver.HandleRx | src/i2c/dma.rs:429-454 | without a receive transfer nothing happens; a FIFO error leaves the driver as it was and calls nothing; the callback budget and the invariant hold |
| DmaDriver.HandleErrorInterrupt | src/i2c/dma.rs:459-464 | no error, no effect; an error ends the transaction, with STOP exactly for a NACK and no transfer started, and the held callback is called with that error and nothing else |
| DmaDriver.BlockingTransfer | src/i2c/dma.rs:467-508 | busy gives `WouldBlock` with no action; otherwise the blocking outcome is passed through, STOP follows exactly a NACK, and no callback is called |
| DriverRuns.ApplyCallbackBudget | src/i2c/dma.rs:165-169 | one event calls callbacks at most as often as callbacks were held before it or handed over with it |
| DriverRuns.RunCallbackBudget | src/i2c/dma.rs:165-169 | over any run, callback invocations plus the one still held never exceed the callbacks handed over plus the one held at the start |
| DriverRuns.ApplyCallsOnce | src/i2c/dma.rs:165-169 | one event calls at most one callback, at most once, and only the one the driver held or the one the event handed over |
| DriverRuns.ApplyPreservesInv | src/i2c/dma.rs:129-150 | every event that does not panic keeps the driver invariant |
| DriverRuns.RunPreservesInv | src/i2c/dma.rs:129-150 | every state a run reaches satisfies the invariant |
| DriverRuns.FromUseDma | src/i2c/dma.rs:88-115 | from the state `use_dma` creates, every state reached satisfies the invariant and no callback is called more often than callbacks were handed over |
| DriverRuns.BusyRejects | src/i2c/dma.rs:529 | while the bus is busy, `write_dma` returns `WouldBlock` with no action and no change, and so do `read_dma` (line 568), `write_read_dma` (610) and the blocking `read` (468), `write_read` (486) and `write` (499), which open with the same `busy_res` check |
| DriverRuns.PendingReadStartsOnlyOnTxComplete | src/i2c/dma.rs:393-415 | while the receive transfer of a write-then-read waits unstarted, only a DMA interrupt reporting transmit complete (no FIFO or transfer error) can start it; entry points, the error interrupt, transfer errors and blocking calls never do |
| HandlerProperties.CallCallbackTwice | src/i2c/dma.rs:165-169 | a second call after the first does nothing |
| HandlerProperties.FinishTwice | src/i2c/dma.rs:355-372 | finalising twice calls the callback at most once, and the second finalisation changes nothing |
| HandlerProperties.TransmitTakesPriority | src/i2c/dma.rs:424-426 | while a transmit transfer exists the receive flags do not influence the DMA interrupt |
| HandlerProperties.ReceiveIgnoresTransmitFlags | src/i2c/dma.rs:378-429 | without a transmit transfer the transmit flags and restart inputs do not matter |
| HandlerProperties.FifoErrorOnlyClears | src/i2c/dma.rs:379-383 | a FIFO error only clears its flag and leaves the driver unchanged |
| HandlerProperties.TransmitCompleteStartsPendingRead | src/i2c/dma.rs:393-415 | with a read pending, the transmit slot goes idle, the callback is kept and not called, and the receive transfer is started last |
| HandlerProperties.TransmitCompleteRestartsBus | src/i2c/dma.rs:405-415 | the restart issues no STOP; its trace is exactly: clear transfer complete, wait for BTF, the read sequence for the remembered address and length (so the read address byte of the address given to `write_read_dma`, ACK cleared exactly when the remembered length is at most one), then start the receive transfer |
| HandlerProperties.TransmitCompleteFinishesWrite | src/i2c/dma.rs:400-418 | with no read pending, the driver becomes ready for a new transaction and the callback gets success before STOP, which comes last |
| HandlerProperties.ReceiveCompleteFinishesRead | src/i2c/dma.rs:444-453 | receive complete makes the driver ready, calls back with success before STOP, and ends with ACK cleared and STOP |
| HandlerProperties.TransferErrorFinalises | src/i2c/dma.rs:385-391 | a transfer error on the stream looked at makes the driver ready, reports `TransferError`, and issues no STOP |
| HandlerProperties.DmaInterruptCallsHeld | src/i2c/dma.rs:376-455 | the DMA interrupt calls no callback other than the one the driver held |
| HandlerProperties.RestartFailureUnwrapsNothing | src/i2c/dma.rs:411-415 | when the restart's read preparation fails, finalisation has released the receive transfer, so the unwrap panics after the callback got the error |
| HandlerProperties.CorrectedAgreesWithoutPanic | src/i2c/dma.rs:376-455 | the corrected handler behaves exactly like the as-written one wherever the latter does not panic |
| HandlerProperties.CorrectedRestartFailureEndsTransaction | src/i2c/dma.rs:411-415 | where the as-written handler panics, the corrected one makes the driver ready, reports the error once, starts nothing, and issues STOP exactly for a NACK |
| Scenarios.WriteCompletes | src/i2c/dma.rs:393-421 | a concrete write ends with the callback before the BTF wait and STOP |
| Scenarios.ReadAddressNackTrace | src/i2c/dma.rs:562-588 | a concrete read to an absent slave is finalised by `read_dma` itself, with STOP and an address NACK |
| Scenarios.WriteReadRestartLost | src/i2c/dma.rs:411-415 | arbitration lost during the restart: the callback is told, then the handler panics |

## Left out

- Register access (`modify`, `read` and `write` on `cr1`, `cr2`, `sr1`,
  `sr2` and `dr`) is modelled as abstract actions.
- The busy-waits in `send_start` and `send_address` are replaced by the
  outcome they end with, supplied as an input. So are the error checks
  inside them. The BTF wait is an action, assumed to terminate.
- The `busy()` register read is an input and performs no action.
- The DMA `Transfer` type, `DmaConfig`, and the stream flag getters and
  clearers are opaque tokens, boolean inputs and actions.
- Buffer contents and the `transmute` that extends buffer lifetimes are
  left out. Buffers are modelled by their length only.
- `PeriAddress::address` computes the data register's address from the register block and
  is left out.
- The blocking `read`, `write` and `write_read` of the underlying driver
  are an oracle outcome.
- The two interrupt handlers are not modelled preempting each other or
  the entry points. Each call is an atomic step.
- `check_and_clear_error_flags` and `Error::nack_addr` live in
  `src/i2c.rs`, which is not part of this model. Their error kinds and
  the unknown-to-address NACK rule are modelled as `I2cTypes.BusError`
  and `I2cTypes.NackAddr`.
- BusSequencing.AddressByte: the byte written is the 32-bit
  `addr << 1 | read` of the source, so an address of 128 or more gives a
  value above 255. The width of the data register is not modelled.
- DmaDriver.WriteDma, DmaDriver.ReadDma, DmaDriver.WriteReadDma: a
  callback still held from an earlier call is overwritten without being
  called. The contracts therefore bound the invocations by the new
  callback only.
- DmaDriver.FinishOrder: in the source, the transfers are released after
  the callback returns. Releasing a transfer is a change of ownership and
  not an action of the model, so the callback is the last recorded action
  although the release follows it.
- DmaDriver.HandleDmaInterrupt, DmaDriver.TxComplete: the contracts state
  the callback budget and the invariant. The exact effect of each branch
  is stated by the `HandlerProperties` lemmas.

## Findings

| source | as written | input that shows it | evidently intended | confidence | as-written member | corrected member |
|---|---|---|---|---|---|---|
| src/i2c/dma.rs:411-415 | when `prepare_read` fails in the restart of a write-then-read, `finish_transfer_with_result` releases the receive transfer, and the next line unwraps it | a write-then-read whose transmit completes while the restart loses arbitration waiting for START (`Scenarios.WriteReadRestartLost`) | after a failed restart the transaction is over, so the receive transfer is not started | not executed | DmaDriver.RestartForRead, HandlerProperties.RestartFailureUnwrapsNothing, Scenarios.WriteReadRestartLost | DmaDriver.HandleDmaInterruptCorrected, HandlerProperties.CorrectedRestartFailureEndsTransaction, HandlerProperties.CorrectedAgreesWithoutPanic |

=== FILE: bus.dfy ===
/** Bus sequencing primitives and the two preparation protocols. The
    busy-waits on status flags are replaced by the outcome the wait ends with,
    supplied by the caller as a `BusReplies` oracle. */
module BusSequencing {
  import opened I2cTypes

  /** How the two waits of a preparation end: the wait for START (and for
      master mode) and the wait for the address acknowledgment. */
  datatype BusReplies = BusReplies(start: Outcome<BusError>, address: Outcome<BusError>)

  /** Actions performed by a sequencing step and the step's result. */
  datatype Sequenced = Sequenced(trace: seq<Action>, outcome: Outcome<BusError>)

  /** The first byte after a START: the 7-bit slave address in bits 7..1 and
      the R/W bit in bit 0, 1 meaning read (section 3.1.10 of the I2C-bus
      specification, UM10204). The source computes it in 32 bits, so no
      address bit is lost before the register write. */
  function AddressByte(addr: u8, read: bool): (b: nat)
    ensures b < 512
    ensures addr < 128 ==> b < 256
    ensures b / 2 == addr as int
    ensures b % 2 == 1 <==> read
  {
    addr as int * 2 + (if read then 1 else 0)
  }

  /** Reads an address byte back into the slave address and the R/W bit. */
  function DecodeAddressByte(b: nat): (r: (u8, bool))
    requires b < 512
  {
    ((b / 2) as u8, b % 2 == 1)
  }

  lemma AddressByteRoundTrip(addr: u8, read: bool)
    ensures DecodeAddressByte(AddressByte(addr, read)) == (addr, read)
  {
  }

  lemma DecodeAddressByteRoundTrip(b: nat)
    requires b < 512
    ensures AddressByte(DecodeAddressByte(b).0, DecodeAddressByte(b).1) == b
  {
  }

  /** Two different address/direction pairs never share a byte. */
  lemma AddressByteInjective(a1: u8, r1: bool, a2: u8, r2: bool)
    requires AddressByte(a1, r1) == AddressByte(a2, r2)
    ensures a1 == a2 && r1 == r2
  {
    AddressByteRoundTrip(a1, r1);
    AddressByteRoundTrip(a2, r2);
  }

  /** Generates START; a read also pre-arms ACK. */
  function SendStart(read: bool, reply: Outcome<BusError>): (r: Sequenced)
    ensures |r.trace| > 0 && r.trace[0] == SetStart
    ensures SetAck in r.trace <==> read
    ensures ClearAck !in r.trace && SetStop !in r.trace && ReadSR2 !in r.trace
    ensures r.outcome == reply
  {
    Sequenced([SetStart] + (if read then [SetAck] else []), reply)
  }

  /** Writes the address byte; an error while waiting for the acknowledgment
      is reclassified by `NackAddr`. */
  function SendAddress(addr: u8, read: bool, reply: Outcome<BusError>): (r: Sequenced)
    ensures r.trace == [WriteDR(AddressByte(addr, read))]
    ensures r.outcome.Pass? <==> reply.Pass?
    ensures r.outcome.Fail? ==> r.outcome.error == NackAddr(reply.error)
  {
    Sequenced([WriteDR(AddressByte(addr, read))],
              match reply
              case Pass => Pass
              case Fail(e) => Fail(NackAddr(e)))
  }

  /** START, address for writing, clear ADDR, enable error interrupts. */
  function PrepareWrite(addr: u8, replies: BusReplies): (r: Sequenced)
    ensures r.outcome.Pass? <==> replies.start.Pass? && replies.address.Pass?
    ensures r.outcome.Fail? ==>
              (replies.start.Fail? && r.outcome.error == replies.start.error) ||
              (replies.start.Pass? && r.outcome.error == NackAddr(replies.address.error))
    ensures Quiet(r.trace)
  {
    var s := SendStart(false, replies.start);
    var r :=
      if s.outcome.Fail? then s
      else
        var a := SendAddress(addr, false, replies.address);
        if a.outcome.Fail? then Sequenced(s.trace + a.trace, a.outcome)
        else Sequenced(s.trace + a.trace + [ReadSR2, EnableErrorInterrupts], Pass);
    QuietIntro(r.trace);
    r
  }

  /** START with ACK armed, address for reading, then (for a receive of at
      most one byte) clear ACK before clearing ADDR, and enable error
      interrupts. */
  function PrepareRead(addr: u8, bufLen: nat, replies: BusReplies): (r: Sequenced)
    ensures r.outcome.Pass? <==> replies.start.Pass? && replies.address.Pass?
    ensures r.outcome.Fail? ==>
              (replies.start.Fail? && r.outcome.error == replies.start.error) ||
              (replies.start.Pass? && r.outcome.error == NackAddr(replies.address.error))
    ensures Quiet(r.trace)
  {
    var s := SendStart(true, replies.start);
    var r :=
      if s.outcome.Fail? then s
      else
        var a := SendAddress(addr, true, replies.address);
        if a.outcome.Fail? then Sequenced(s.trace + a.trace, a.outcome)
        else
          var head := s.trace + a.trace + (if bufLen <= 1 then [ClearAck] else []);
          Sequenced(head + [ReadSR2, EnableErrorInterrupts], Pass);
    QuietIntro(r.trace);
    r
  }

  /** A write preparation never touches ACK; when it succeeds it clears
      ADDR after the address byte and enables error interrupts last. */
  lemma PrepareWriteOrder(addr: u8, replies: BusReplies)
    ensures var t := PrepareWrite(addr, replies).trace;
      && |t| > 0 && t[0] == SetStart
      && SetAck !in t && ClearAck !in t
      && (replies.start.Pass? && replies.address.Pass? ==>
            t == [SetStart, WriteDR(AddressByte(addr, false)), ReadSR2, EnableErrorInterrupts])
      && (replies.start.Fail? || replies.address.Fail? ==> ReadSR2 !in t && EnableErrorInterrupts !in t)
  {
    if replies.start.Fail? {
      assert PrepareWrite(addr, replies).trace == [SetStart];
    } else if replies.address.Fail? {
      assert PrepareWrite(addr, replies).trace == [SetStart, WriteDR(AddressByte(addr, false))];
    }
  }

  /** A read preparation arms ACK with START, and a failed one stops before
      touching ACK again, clearing ADDR or enabling error interrupts. */
  lemma PrepareReadFailureOrder(addr: u8, bufLen: nat, replies: BusReplies)
    requires replies.start.Fail? || replies.address.Fail?
    ensures var t := PrepareRead(addr, bufLen, replies).trace;
      && |t| >= 2 && t[0] == SetStart && t[1] == SetAck
      && ClearAck !in t && ReadSR2 !in t && EnableErrorInterrupts !in t
  {
    if replies.start.Fail? {
      assert PrepareRead(addr, bufLen, replies).trace == [SetStart, SetAck];
    } else {
      assert PrepareRead(addr, bufLen, replies).trace == [SetStart, SetAck, WriteDR(AddressByte(addr, true))];
    }
  }

  /** A successful read preparation sends the read address right after
      START and ACK; ACK is cleared before ADDR is cleared exactly for a
      receive of at most one byte, and error interrupts are enabled last. */
  lemma PrepareReadOrder(addr: u8, bufLen: nat, replies: BusReplies)
    requires replies.start.Pass? && replies.address.Pass?
    ensures var t := PrepareRead(addr, bufLen, replies).trace;
      && |t| >= 5 && t[0] == SetStart && t[1] == SetAck && t[2] == WriteDR(AddressByte(addr, true))
      && AllBefore(t, ClearAck, ReadSR2)
      && ReadSR2 in t && t[|t| - 1] == EnableErrorInterrupts
      && (ClearAck in t <==> bufLen <= 1)
  {
    var b := AddressByte(addr, true);
    var head := [SetStart, SetAck, WriteDR(b)] + (if bufLen <= 1 then [ClearAck] else []);
    assert PrepareRead(addr, bufLen, replies).trace == head + [ReadSR2, EnableErrorInterrupts];
    AllBeforeAppend(head, [ReadSR2, EnableErrorInterrupts], ClearAck, ReadSR2);
  }
}

=== FILE: driver.dfy ===
/** The asynchronous I2C-over-DMA driver (`I2CMasterDma`) as a deterministic
    state machine. Every entry point and interrupt handler is a pure function
    from the driver state and the hardware inputs of that call to the new
    state, the actions performed, and the returned value. A Rust panic
    (`assert!` or `unwrap` on an absent value) ends the step in `Panicked`. */
module DmaDriver {
  import opened I2cTypes
  import opened Slots
  import opened BusSequencing

  /** The driver state: the optional single-shot callback, the receive
      parameters remembered for the restart of a write-then-read, and the
      transmit and receive resource slots. The register block of the
      blocking driver is hardware and is not part of the state. */
  datatype Driver = Driver(callback: Option<Callback>, address: u8, rxLen: nat, tx: Slot, rx: Slot)

  /** New state plus the actions performed, for steps that cannot panic. */
  datatype Effect = Effect(driver: Driver, trace: seq<Action>)

  /** Result of a public operation or interrupt handler. */
  datatype Step<+R> =
    | Returned(driver: Driver, trace: seq<Action>, value: R)
    | Panicked(trace: seq<Action>)

  /** DMA stream status flags read by the interrupt handler. */
  datatype Flags = Flags(fifoError: bool, transferError: bool, transferComplete: bool)

  /** Hardware inputs of one DMA interrupt: the flags of both streams and,
      for the restart of a write-then-read, the outcome of its preparation. */
  datatype DmaEvent = DmaEvent(tx: Flags, rx: Flags, restart: BusReplies)

  /** Result of a blocking transfer, which leaves the driver state alone. */
  datatype Reply = Reply(trace: seq<Action>, value: NbResult)

  /** The states the driver moves through between calls: each slot has one
      owner, a callback is held only while a transfer is alive, a transmit
      transfer is alive only once started, and a receive transfer waits
      unstarted only behind a transmit transfer (write-then-read). */
  predicate Inv(d: Driver) {
    && Valid(d.tx) && Valid(d.rx)
    && (Idle(d.tx) && Idle(d.rx) ==> d.callback.None?)
    && (d.tx.transfer.Some? ==> d.tx.transfer.value.started)
    && (d.rx.transfer.Some? && !d.rx.transfer.value.started ==> d.tx.transfer.Some?)
  }

  /** Both slots idle and no callback held: ready for a new transaction. */
  predicate Quiescent(d: Driver) {
    Idle(d.tx) && Idle(d.rx) && d.callback.None?
  }

  /** No transfer is alive and no callback is held: the transaction is over. */
  predicate Ended(d: Driver) {
    d.tx.transfer.None? && d.rx.transfer.None? && d.callback.None?
  }

  /** The trace finishes with the actions `tail`. */
  predicate EndsWith(t: seq<Action>, tail: seq<Action>) {
    |t| >= |tail| && t[|t| - |tail|..] == tail
  }

  /** Framing a trace with one silent action before and two after keeps
      what it calls and starts, and the trace ends with the two. */
  lemma Bracketed(a: Action, t: seq<Action>, b: Action, c: Action)
    requires Silent(a) && Silent(b) && Silent(c)
    ensures Invocations([a] + t + [b, c]) == Invocations(t)
    ensures StartsNothing([a] + t + [b, c]) == StartsNothing(t)
    ensures EndsWith([a] + t + [b, c], [b, c])
  {
    InvocationsAppend([a], t);
    InvocationsAppend([a] + t, [b, c]);
    assert [b, c][1..] == [c];
    assert Invocations([a]) == 0 && Invocations([c]) == 0;
    assert ([a] + t + [b, c])[|[a] + t|..] == [b, c];
  }

  /** A quiet prefix changes neither the callbacks a trace calls, nor
      whether it starts a transfer, nor whether it stops the bus. */
  lemma QuietPrefix(head: seq<Action>, t: seq<Action>)
    requires Quiet(head)
    ensures Invocations(head + t) == Invocations(t)
    ensures StartsNothing(head + t) == StartsNothing(t)
    ensures (SetStop in head + t) == (SetStop in t)
  {
    InvocationsAppend(head, t);
  }

  /** 1 while a callback is held, 0 otherwise. */
  function Held(c: Option<Callback>): nat {
    if c.Some? then 1 else 0
  }

  function SlotOf(d: Driver, side: Side): Slot {
    if side == Transmit then d.tx else d.rx
  }

  function WithSlot(d: Driver, side: Side, s: Slot): (r: Driver)
    ensures SlotOf(r, side) == s
    ensures side == Transmit ==> r.rx == d.rx
    ensures side == Receive ==> r.tx == d.tx
    ensures r.callback == d.callback && r.address == d.address && r.rxLen == d.rxLen
  {
    if side == Transmit then d.(tx := s) else d.(rx := s)
  }

  /** Converts the blocking driver and two idle streams into the DMA driver. */
  function UseDma(txStream: Stream, rxStream: Stream): (d: Driver)
    ensures Inv(d) && Quiescent(d)
    ensures d.tx.stream == Some(txStream) && d.rx.stream == Some(rxStream)
    ensures d.tx.endpoint == Some(Endpoint(Transmit)) && d.rx.endpoint == Some(Endpoint(Receive))
    ensures d.address == 0 && d.rxLen == 0
  {
    Driver(None, 0, 0,
           Slot(Some(Endpoint(Transmit)), Some(txStream), None),
           Slot(Some(Endpoint(Receive)), Some(rxStream), None))
  }

  // ---------------------------------------------------------------------
  // Single-shot callback and resource slots
  // ---------------------------------------------------------------------

  /** Takes the callback out of the driver and, if there was one, calls it. */
  function CallCallbackOnce(d: Driver, res: CallbackResult): (r: Effect)
    ensures r.driver.callback.None?
    ensures r.driver.(callback := d.callback) == d
    ensures Invocations(r.trace) == (if d.callback.Some? then 1 else 0)
    ensures d.callback.Some? ==> r.trace == [Invoke(d.callback.value, res)]
    ensures d.callback.None? ==> r.trace == []
  {
    match d.callback
    case Some(c) => Effect(d.(callback := None), [Invoke(c, res)])
    case None => Effect(d, [])
  }

  /** Binds `buf` to a new transfer on the given side (`create_tx_transfer`,
      `create_rx_transfer`). The endpoint and the stream must be at home. */
  function CreateTransfer(d: Driver, side: Side, buf: Buffer): (r: Driver)
    requires SlotOf(d, side).endpoint.Some? && SlotOf(d, side).stream.Some?
    ensures Active(SlotOf(r, side))
    ensures SlotOf(r, side).transfer.value.stream == SlotOf(d, side).stream.value
    ensures SlotOf(r, side).transfer.value.endpoint == SlotOf(d, side).endpoint.value
    ensures SlotOf(r, side).transfer.value.buffer == buf
    ensures !SlotOf(r, side).transfer.value.started
    ensures side == Transmit ==> r.rx == d.rx
    ensures side == Receive ==> r.tx == d.tx
    ensures r.callback == d.callback && r.address == d.address && r.rxLen == d.rxLen
  {
    WithSlot(d, side, Create(SlotOf(d, side), buf))
  }

  /** Releases the transfer on the given side (`destroy_tx_transfer`,
      `destroy_rx_transfer`). The transfer must exist. */
  function DestroyTransfer(d: Driver, side: Side): (r: Driver)
    requires SlotOf(d, side).transfer.Some?
    ensures Idle(SlotOf(r, side))
    ensures SlotOf(r, side).stream == Some(SlotOf(d, side).transfer.value.stream)
    ensures SlotOf(r, side).endpoint == Some(SlotOf(d, side).transfer.value.endpoint)
    ensures side == Transmit ==> r.rx == d.rx
    ensures side == Receive ==> r.tx == d.tx
    ensures r.callback == d.callback && r.address == d.address && r.rxLen == d.rxLen
  {
    WithSlot(d, side, Destroy(SlotOf(d, side)))
  }

  /** Starts the transfer on the given side; the transfer is unwrapped, so
      it must exist. */
  function StartTransfer(d: Driver, side: Side): (r: Driver)
    requires SlotOf(d, side).transfer.Some?
    ensures SlotOf(r, side).transfer == Some(SlotOf(d, side).transfer.value.(started := true))
    ensures SlotOf(r, side).endpoint == SlotOf(d, side).endpoint && SlotOf(r, side).stream == SlotOf(d, side).stream
    ensures Destroy(SlotOf(r, side)) == Destroy(SlotOf(d, side))
    ensures side == Transmit ==> r.rx == d.rx
    ensures side == Receive ==> r.tx == d.tx
    ensures r.callback == d.callback && r.address == d.address && r.rxLen == d.rxLen
  {
    WithSlot(d, side, Start(SlotOf(d, side)))
  }

  /** Creating then destroying a transfer restores an idle slot and leaves
      everything else of the driver as it was. */
  lemma CreateThenDestroyTransfer(d: Driver, side: Side, buf: Buffer)
    requires Idle(SlotOf(d, side))
    ensures DestroyTransfer(CreateTransfer(d, side, buf), side) == d
  {
    CreateThenDestroy(SlotOf(d, side), buf);
  }

  // ---------------------------------------------------------------------
  // Finalisation
  // ---------------------------------------------------------------------

  /** Ends the transaction: disables DMA requests and error interrupts,
      issues STOP for a NACK, calls the callback once with `res`, and
      releases whichever transfers still exist. */
  function FinishTransferWithResult(d: Driver, res: CallbackResult): (r: Effect)
    ensures Ended(r.driver)
    ensures Valid(d.tx) && Valid(d.rx) ==> Quiescent(r.driver)
    ensures Invocations(r.trace) == Held(d.callback)
    ensures SetStop in r.trace <==> IsNack(res)
    ensures StartsNothing(r.trace)
  {
    var head := StopPrefix(res);
    var cb := CallCallbackOnce(d, res);
    InvocationsAppend(head, cb.trace);
    assert SetStop !in cb.trace && StartsNothing(cb.trace);
    Effect(ReleaseTransfers(cb.driver), head + cb.trace)
  }

  /** The actions finalisation performs before calling the callback:
      silence the peripheral, then STOP for a NACK only. */
  function StopPrefix(res: CallbackResult): (r: seq<Action>)
    ensures |r| >= 2 && r[0] == DisableDmaRequests && r[1] == DisableErrorInterrupts
    ensures SetStop in r <==> IsNack(res)
    ensures Invocations(r) == 0 && StartsNothing(r)
  {
    var r := [DisableDmaRequests, DisableErrorInterrupts] + (if IsNack(res) then [SetStop] else []);
    InvocationsZero(r);
    r
  }

  /** Destroys whichever transfers still exist. */
  function ReleaseTransfers(d: Driver): (r: Driver)
    ensures r.tx.transfer.None? && r.rx.transfer.None?
    ensures Valid(d.tx) ==> Idle(r.tx)
    ensures Valid(d.rx) ==> Idle(r.rx)
    ensures d.tx.transfer.Some? ==>
              r.tx.stream == Some(d.tx.transfer.value.stream) && r.tx.endpoint == Some(d.tx.transfer.value.endpoint)
    ensures d.tx.transfer.None? ==> r.tx == d.tx
    ensures d.rx.transfer.Some? ==>
              r.rx.stream == Some(d.rx.transfer.value.stream) && r.rx.endpoint == Some(d.rx.transfer.value.endpoint)
    ensures d.rx.transfer.None? ==> r.rx == d.rx
    ensures r.callback == d.callback && r.address == d.address && r.rxLen == d.rxLen
  {
    var d1 := if d.tx.transfer.Some? then DestroyTransfer(d, Transmit) else d;
    if d1.rx.transfer.Some? then DestroyTransfer(d1, Receive) else d1
  }

  /** Finalisation first silences the peripheral; then it calls the held
      callback, if any, with `res` and nothing else, after STOP when there
      is one. The callback is the last action: releasing the transfers,
      which follows it, is not an action of the model. */
  lemma FinishOrder(d: Driver, res: CallbackResult)
    ensures var t := FinishTransferWithResult(d, res).trace;
      && |t| >= 2 && t[0] == DisableDmaRequests && t[1] == DisableErrorInterrupts
      && (d.callback.Some? ==>
            && EndsWith(t, [Invoke(d.callback.value, res)])
            && InvokesOnly(t, d.callback.value, res)
            && AllBefore(t, SetStop, Invoke(d.callback.value, res)))
  {
    if d.callback.Some? {
      var c := d.callback.value;
      var head := StopPrefix(res);
      InvokesOnlyAfter(head, [Invoke(c, res)], c, res);
      AllBeforeAppend(head, [Invoke(c, res)], SetStop, Invoke(c, res));
    }
  }

  /** Finalisation leaves the restart parameters alone. */
  lemma FinishKeepsRestartParameters(d: Driver, res: CallbackResult)
    ensures var r := FinishTransferWithResult(d, res).driver;
      r.address == d.address && r.rxLen == d.rxLen
  {
  }

  // ---------------------------------------------------------------------
  // Public entry points
  // ---------------------------------------------------------------------

  /** `WouldBlock` while the bus is busy, otherwise go ahead. */
  function BusyRes(busy: bool): (r: NbResult)
    ensures r == WouldBlock <==> busy
    ensures !r.Other?
  {
    if busy then WouldBlock else NbOk
  }

  /** Shared tail of the entry points, once DMA requests are enabled, the
      transfers exist and the callback is installed: on a preparation
      failure finalise with that error and return it, otherwise start the
      first transfer. */
  function Launch(d: Driver, prep: Sequenced, first: Side): (r: Step<NbResult>)
    requires SlotOf(d, first).transfer.Some?
    requires Quiet(prep.trace)
    ensures r.Returned?
    ensures r.value == NbOk <==> prep.outcome.Pass?
    ensures r.value.Other? ==> Fail(r.value.error) == prep.outcome
    ensures prep.outcome.Pass? ==> r.driver == StartTransfer(d, first) && Invocations(r.trace) == 0
    ensures prep.outcome.Fail? ==>
              && Ended(r.driver) && (Valid(d.tx) && Valid(d.rx) ==> Quiescent(r.driver))
              && Invocations(r.trace) == Held(d.callback)
              && (SetStop in r.trace <==> prep.outcome.error.NoAcknowledge?)
              && StartsNothing(r.trace)
  {
    var head := [EnableDmaRequests] + prep.trace;
    assert Invocations([EnableDmaRequests]) == 0;
    QuietAppend([EnableDmaRequests], prep.trace);
    match prep.outcome
    case Fail(e) =>
      var f := FinishTransferWithResult(d, Fail(I2CError(e)));
      QuietPrefix(head, f.trace);
      Returned(f.driver, head + f.trace, Other(e))
    case Pass =>
      var start := if first == Transmit then StartTx else StartRx;
      InvocationsAppend(head, [start]);
      Returned(StartTransfer(d, first), head + [start], NbOk)
  }

  /** A failed launch calls the held callback with the preparation error
      and with nothing else. */
  lemma LaunchFailureInvokes(d: Driver, prep: Sequenced, first: Side)
    requires SlotOf(d, first).transfer.Some?
    requires Quiet(prep.trace) && prep.outcome.Fail? && d.callback.Some?
    ensures InvokesOnly(Launch(d, prep, first).trace, d.callback.value, Fail(I2CError(prep.outcome.error)))
  {
    var res := Fail(I2CError(prep.outcome.error));
    var head := [EnableDmaRequests] + prep.trace;
    InvocationsAppend([EnableDmaRequests], prep.trace);
    FinishOrder(d, res);
    InvokesOnlyAfter(head, FinishTransferWithResult(d, res).trace, d.callback.value, res);
  }

  /** `write_dma`: starts an asynchronous write of `bytes` to `addr`. A
      callback held from before is dropped in favour of `callback`. */
  function WriteDma(d: Driver, addr: u8, bytes: Buffer, callback: Option<Callback>,
                    busy: bool, replies: BusReplies): (r: Step<NbResult>)
    ensures busy ==> r == Returned(d, [], WouldBlock)
    ensures r.Panicked? <==> !busy && !(d.tx.endpoint.Some? && d.tx.stream.Some?)
    ensures r.Panicked? ==> Invocations(r.trace) == 0
    ensures r.Returned? && !busy ==>
              && Invocations(r.trace) + Held(r.driver.callback) <= Held(callback)
              && (r.value == NbOk <==> replies.start.Pass? && replies.address.Pass?)
    ensures Inv(d) && r.Returned? ==> Inv(r.driver)
  {
    var gate := BusyRes(busy);
    if gate.WouldBlock? then Returned(d, [], gate)
    else if !(d.tx.endpoint.Some? && d.tx.stream.Some?) then Panicked([EnableDmaRequests])
    else Launch(CreateTransfer(d, Transmit, bytes).(callback := callback), PrepareWrite(addr, replies), Transmit)
  }

  /** A write whose preparation succeeds holds the new callback and has
      started the transmit transfer over `bytes`, after START, the write
      address and the ADDR clear. */
  lemma WriteDmaStarts(d: Driver, addr: u8, bytes: Buffer, callback: Option<Callback>, replies: BusReplies)
    requires d.tx.endpoint.Some? && d.tx.stream.Some?
    requires replies.start.Pass? && replies.address.Pass?
    ensures var r := WriteDma(d, addr, bytes, callback, false, replies);
      && r.Returned? && r.value == NbOk
      && r.driver.tx.transfer == Some(Transfer(d.tx.stream.value, d.tx.endpoint.value, bytes, true))
      && r.driver.rx == d.rx && r.driver.callback == callback
      && r.trace == [EnableDmaRequests, SetStart, WriteDR(AddressByte(addr, false)), ReadSR2,
                     EnableErrorInterrupts, StartTx]
  {
    PrepareWriteOrder(addr, replies);
  }

  /** A write whose preparation fails returns the preparation error, after
      finalising with it: no transfer is left, the new callback got the
      error, STOP was issued exactly for a NACK, and nothing was started. */
  lemma WriteDmaFails(d: Driver, addr: u8, bytes: Buffer, callback: Option<Callback>, replies: BusReplies)
    requires d.tx.endpoint.Some? && d.tx.stream.Some?
    requires replies.start.Fail? || replies.address.Fail?
    ensures var r := WriteDma(d, addr, bytes, callback, false, replies);
      && r.Returned? && r.value.Other?
      && Fail(r.value.error) == PrepareWrite(addr, replies).outcome
      && Ended(r.driver)
      && Invocations(r.trace) == Held(callback)
      && (callback.Some? ==> InvokesOnly(r.trace, callback.value, Fail(I2CError(r.value.error))))
      && (SetStop in r.trace <==> r.value.error.NoAcknowledge?)
      && StartsNothing(r.trace)
  {
    if callback.Some? {
      var d1 := CreateTransfer(d, Transmit, bytes).(callback := callback);
      LaunchFailureInvokes(d1, PrepareWrite(addr, replies), Transmit);
    }
  }

  /** `read_dma`: starts an asynchronous read into `buf` from `addr`. A
      callback held from before is dropped in favour of `callback`. */
  function ReadDma(d: Driver, addr: u8, buf: Buffer, callback: Option<Callback>,
                   busy: bool, replies: BusReplies): (r: Step<NbResult>)
    ensures busy ==> r == Returned(d, [], WouldBlock)
    ensures r.Panicked? <==> !busy && !(d.rx.endpoint.Some? && d.rx.stream.Some?)
    ensures r.Panicked? ==> Invocations(r.trace) == 0
    ensures r.Returned? && !busy ==>
              && Invocations(r.trace) + Held(r.driver.callback) <= Held(callback)
              && (r.value == NbOk <==> replies.start.Pass? && replies.address.Pass?)
    ensures Inv(d) && r.Returned? ==> Inv(r.driver)
  {
    var gate := BusyRes(busy);
    if gate.WouldBlock? then Returned(d, [], gate)
    else if !(d.rx.endpoint.Some? && d.rx.stream.Some?) then Panicked([EnableDmaRequests])
    else Launch(CreateTransfer(d, Receive, buf).(callback := callback), PrepareRead(addr, buf.len, replies), Receive)
  }

  /** A read whose preparation succeeds holds the new callback, has started
      the receive transfer over `buf`, and has cleared ACK before ADDR
      exactly when `buf` has at most one byte. */
  lemma ReadDmaStarts(d: Driver, addr: u8, buf: Buffer, callback: Option<Callback>, replies: BusReplies)
    requires d.rx.endpoint.Some? && d.rx.stream.Some?
    requires replies.start.Pass? && replies.address.Pass?
    ensures var r := ReadDma(d, addr, buf, callback, false, replies);
      && r.Returned? && r.value == NbOk
      && r.driver.rx.transfer == Some(Transfer(d.rx.stream.value, d.rx.endpoint.value, buf, true))
      && r.driver.tx == d.tx && r.driver.callback == callback
      && Invocations(r.trace) == 0
      && r.trace[0] == EnableDmaRequests && r.trace[|r.trace| - 1] == StartRx
      && (ClearAck in r.trace <==> buf.len <= 1)
      && r.trace == [EnableDmaRequests] + PrepareRead(addr, buf.len, replies).trace + [StartRx]
  {
    var p := PrepareRead(addr, buf.len, replies);
    PrepareReadOrder(addr, buf.len, replies);
    var d1 := CreateTransfer(d, Receive, buf).(callback := callback);
    assert ReadDma(d, addr, buf, callback, false, replies) == Launch(d1, p, Receive);
    assert Launch(d1, p, Receive).trace == [EnableDmaRequests] + p.trace + [StartRx];
  }

  /** A read whose preparation fails returns the preparation error, after
      finalising with it: no transfer is left, the new callback got the
      error, STOP was issued exactly for a NACK, and nothing was started. */
  lemma ReadDmaFails(d: Driver, addr: u8, buf: Buffer, callback: Option<Callback>, replies: BusReplies)
    requires d.rx.endpoint.Some? && d.rx.stream.Some?
    requires replies.start.Fail? || replies.address.Fail?
    ensures var r := ReadDma(d, addr, buf, callback, false, replies);
      && r.Returned? && r.value.Other?
      && Fail(r.value.error) == PrepareRead(addr, buf.len, replies).outcome
      && Ended(r.driver)
      && Invocations(r.trace) == Held(callback)
      && (callback.Some? ==> InvokesOnly(r.trace, callback.value, Fail(I2CError(r.value.error))))
      && (SetStop in r.trace <==> r.value.error.NoAcknowledge?)
      && StartsNothing(r.trace)
  {
    if callback.Some? {
      var d1 := CreateTransfer(d, Receive, buf).(callback := callback);
      LaunchFailureInvokes(d1, PrepareRead(addr, buf.len, replies), Receive);
    }
  }

  /** `write_read_dma`: starts a write of `bytes` that is followed, after a
      restart, by a read into `buf`. Both transfers are created now; only
      the transmit transfer is started. */
  function WriteReadDma(d: Driver, addr: u8, bytes: Buffer, buf: Buffer, callback: Option<Callback>,
                        busy: bool, replies: BusReplies): (r: Step<NbResult>)
    ensures busy ==> r == Returned(d, [], WouldBlock)
    ensures r.Panicked? <==>
              !busy && !(d.tx.endpoint.Some? && d.tx.stream.Some? && d.rx.endpoint.Some? && d.rx.stream.Some?)
    ensures r.Panicked? ==> Invocations(r.trace) == 0
    ensures r.Returned? && !busy ==>
              && Invocations(r.trace) + Held(r.driver.callback) <= Held(callback)
              && (r.value == NbOk <==> replies.start.Pass? && replies.address.Pass?)
              && StartRx !in r.trace
    ensures Inv(d) && r.Returned? ==> Inv(r.driver)
  {
    var gate := BusyRes(busy);
    if gate.WouldBlock? then Returned(d, [], gate)
    else if !(d.tx.endpoint.Some? && d.tx.stream.Some?) then Panicked([EnableDmaRequests])
    else if !(d.rx.endpoint.Some? && d.rx.stream.Some?) then Panicked([EnableDmaRequests])
    else
      var d0 := d.(address := addr, rxLen := buf.len);
      var d1 := CreateTransfer(CreateTransfer(d0, Transmit, bytes), Receive, buf).(callback := callback);
      Launch(d1, PrepareWrite(addr, replies), Transmit)
  }

  /** A write-then-read whose write preparation succeeds has started the
      transmit transfer, holds the receive transfer unstarted, and
      remembers the address and length for the restart. */
  lemma WriteReadDmaStarts(d: Driver, addr: u8, bytes: Buffer, buf: Buffer, callback: Option<Callback>,
                           replies: BusReplies)
    requires d.tx.endpoint.Some? && d.tx.stream.Some? && d.rx.endpoint.Some? && d.rx.stream.Some?
    requires replies.start.Pass? && replies.address.Pass?
    ensures var r := WriteReadDma(d, addr, bytes, buf, callback, false, replies);
      && r.Returned? && r.value == NbOk
      && r.driver.tx.transfer == Some(Transfer(d.tx.stream.value, d.tx.endpoint.value, bytes, true))
      && r.driver.rx.transfer == Some(Transfer(d.rx.stream.value, d.rx.endpoint.value, buf, false))
      && r.driver.address == addr && r.driver.rxLen == buf.len && r.driver.callback == callback
      && r.trace == [EnableDmaRequests, SetStart, WriteDR(AddressByte(addr, false)), ReadSR2,
                     EnableErrorInterrupts, StartTx]
  {
    PrepareWriteOrder(addr, replies);
  }

  /** A write-then-read whose write preparation fails (an address NACK
      among others) finalises: both slots are idle again, the callback got
      the error, and the receive transfer never started. */
  lemma WriteReadDmaFails(d: Driver, addr: u8, bytes: Buffer, buf: Buffer, callback: Option<Callback>,
                          replies: BusReplies)
    requires d.tx.endpoint.Some? && d.tx.stream.Some? && d.rx.endpoint.Some? && d.rx.stream.Some?
    requires replies.start.Fail? || replies.address.Fail?
    ensures var r := WriteReadDma(d, addr, bytes, buf, callback, false, replies);
      && r.Returned? && r.value.Other?
      && Fail(r.value.error) == PrepareWrite(addr, replies).outcome
      && Idle(r.driver.tx) && Idle(r.driver.rx) && r.driver.callback.None?
      && Invocations(r.trace) == Held(callback)
      && (callback.Some? ==> InvokesOnly(r.trace, callback.value, Fail(I2CError(r.value.error))))
      && (SetStop in r.trace <==> r.value.error.NoAcknowledge?)
      && StartsNothing(r.trace)
  {
    if callback.Some? {
      var d0 := d.(address := addr, rxLen := buf.len);
      var d1 := CreateTransfer(CreateTransfer(d0, Transmit, bytes), Receive, buf).(callback := callback);
      LaunchFailureInvokes(d1, PrepareWrite(addr, replies), Transmit);
    }
  }

  // ---------------------------------------------------------------------
  // Interrupt handlers
  // ---------------------------------------------------------------------

  /** Transmit-complete branch of the DMA interrupt: release the transmit
      transfer; without a pending receive, finalise with success, wait for
      BTF and issue STOP; with one, wait for BTF and restart for it. */
  function TxComplete(d: Driver, restart: BusReplies): (r: Step<()>)
    requires d.tx.transfer.Some?
    ensures r.Panicked? <==> d.rx.transfer.Some? && PrepareRead(d.address, d.rxLen, restart).outcome.Fail?
    ensures r.Panicked? ==> Invocations(r.trace) == Held(d.callback)
    ensures r.Returned? ==> Invocations(r.trace) + Held(r.driver.callback) <= Held(d.callback)
    ensures r.Returned? && Inv(d) ==> Inv(r.driver)
  {
    var haveReadAfter := d.rx.transfer.Some?;
    var d1 := DestroyTransfer(d, Transmit);
    if !haveReadAfter then
      var e := WriteDone(d1);
      Returned(e.driver, e.trace, ())
    else RestartForRead(d1, restart)
  }

  /** The end of a plain write, once its transfer is released: finalise
      with success, wait for BTF, issue STOP. */
  function WriteDone(d: Driver): (r: Effect)
    ensures Ended(r.driver)
    ensures Valid(d.tx) && Valid(d.rx) ==> Quiescent(r.driver)
    ensures Invocations(r.trace) == Held(d.callback)
    ensures EndsWith(r.trace, [WaitBtf, SetStop])
    ensures StartsNothing(r.trace)
  {
    var f := FinishTransferWithResult(d, Pass);
    Bracketed(ClearTransferComplete(Transmit), f.trace, WaitBtf, SetStop);
    Effect(f.driver, [ClearTransferComplete(Transmit)] + f.trace + [WaitBtf, SetStop])
  }

  /** A plain write calls the held callback with success and nothing else,
      before it issues STOP, and starts no transfer. */
  lemma WriteDoneOrder(d: Driver)
    requires d.callback.Some?
    ensures var t := WriteDone(d).trace;
      && InvokesOnly(t, d.callback.value, Pass)
      && AllBefore(t, Invoke(d.callback.value, Pass), SetStop)
      && StartsNothing(t)
  {
    var c := d.callback.value;
    var f := FinishTransferWithResult(d, Pass);
    FinishOrder(d, Pass);
    assert InvokesOnly(f.trace, c, Pass);
    InvokesOnlyFrame([ClearTransferComplete(Transmit)], f.trace, [WaitBtf, SetStop], c, Pass);
    AllBeforeAppend([ClearTransferComplete(Transmit)] + f.trace, [WaitBtf, SetStop], Invoke(c, Pass), SetStop);
  }

  /** Finalisation after actions that called no callback. */
  function FinishAfter(head: seq<Action>, d: Driver, res: CallbackResult): (r: Effect)
    requires Invocations(head) == 0
    ensures Invocations(r.trace) == Held(d.callback)
  {
    var g := FinishTransferWithResult(d, res);
    InvocationsAppend(head, g.trace);
    Effect(g.driver, head + g.trace)
  }

  /** The restart of a write-then-read, as written, once the transmit
      transfer is released: wait for BTF, prepare the read with the
      remembered address and length, and start the receive transfer. */
  function RestartForRead(d: Driver, restart: BusReplies): (r: Step<()>)
    requires d.rx.transfer.Some?
    ensures r.Panicked? <==> PrepareRead(d.address, d.rxLen, restart).outcome.Fail?
    ensures r.Panicked? ==> Invocations(r.trace) == Held(d.callback)
    ensures r.Returned? ==> r.driver == StartTransfer(d, Receive) && Invocations(r.trace) == 0
  {
    StartPreparedRead(d, PrepareRead(d.address, d.rxLen, restart))
  }

  /** What the restart does before preparing the read: clear the transmit
      complete flag and wait for BTF, neither of which calls a callback,
      starts a transfer or stops the bus. */
  lemma RestartHeadQuiet(t: seq<Action>)
    requires Quiet(t)
    ensures Quiet([ClearTransferComplete(Transmit), WaitBtf] + t)
  {
    var h := [ClearTransferComplete(Transmit), WaitBtf];
    assert Invocations(h[1..]) == 0;
    InvocationsAppend(h, t);
  }

  /** What the restart does after the read preparation `p`. When `p`
      failed, finalisation calls the callback with the error and releases
      the receive transfer, so the unwrap that follows panics. */
  function StartPreparedRead(d: Driver, p: Sequenced): (r: Step<()>)
    requires d.rx.transfer.Some? && Quiet(p.trace)
    ensures p.outcome.Fail? ==> r.Panicked? && Invocations(r.trace) == Held(d.callback)
    ensures p.outcome.Pass? ==> r.Returned? && r.driver == StartTransfer(d, Receive) && Invocations(r.trace) == 0
  {
    var head := [ClearTransferComplete(Transmit), WaitBtf] + p.trace;
    RestartHeadQuiet(p.trace);
    if p.outcome.Fail? then
      var g := FinishAfter(head, d, Fail(I2CError(p.outcome.error)));
      // `finish_transfer_with_result` has released the receive transfer,
      // so the unwrap that follows panics.
      assert g.driver.rx.transfer.None?;
      Panicked(g.trace)
    else
      InvocationsAppend(head, [StartRx]);
      Returned(StartTransfer(d, Receive), head + [StartRx], ())
  }

  /** The restart with the evident intent restored: after a failed
      preparation the transaction is over, so nothing is started. */
  function RestartForReadCorrected(d: Driver, restart: BusReplies): (r: Effect)
    requires d.rx.transfer.Some?
    ensures PrepareRead(d.address, d.rxLen, restart).outcome.Fail? ==>
              && Ended(r.driver) && (Valid(d.tx) && Valid(d.rx) ==> Quiescent(r.driver))
              && Invocations(r.trace) == Held(d.callback)
    ensures PrepareRead(d.address, d.rxLen, restart).outcome.Pass? ==>
              r.driver == StartTransfer(d, Receive) && Invocations(r.trace) == 0
  {
    StartPreparedReadCorrected(d, PrepareRead(d.address, d.rxLen, restart))
  }

  /** The corrected continuation after the read preparation `p`. */
  function StartPreparedReadCorrected(d: Driver, p: Sequenced): (r: Effect)
    requires d.rx.transfer.Some? && Quiet(p.trace)
    ensures p.outcome.Fail? ==>
              && Ended(r.driver) && (Valid(d.tx) && Valid(d.rx) ==> Quiescent(r.driver))
              && Invocations(r.trace) == Held(d.callback)
    ensures p.outcome.Pass? ==> r.driver == StartTransfer(d, Receive) && Invocations(r.trace) == 0
  {
    var head := [ClearTransferComplete(Transmit), WaitBtf] + p.trace;
    RestartHeadQuiet(p.trace);
    if p.outcome.Fail? then
      FinishAfter(head, d, Fail(I2CError(p.outcome.error)))
    else
      InvocationsAppend(head, [StartRx]);
      Effect(StartTransfer(d, Receive), head + [StartRx])
  }

  /** The transmit-complete branch built on the corrected restart. */
  function TxCompleteCorrected(d: Driver, restart: BusReplies): (r: Effect)
    requires d.tx.transfer.Some?
    ensures Invocations(r.trace) + Held(r.driver.callback) <= Held(d.callback)
    ensures Inv(d) ==> Inv(r.driver)
  {
    var haveReadAfter := d.rx.transfer.Some?;
    var d1 := DestroyTransfer(d, Transmit);
    if !haveReadAfter then WriteDone(d1)
    else RestartForReadCorrected(d1, restart)
  }

  /** Receive-complete branch: finalise with success, then clear ACK and
      issue STOP. */
  function RxComplete(d: Driver): (r: Effect)
    ensures Ended(r.driver)
    ensures Valid(d.tx) && Valid(d.rx) ==> Quiescent(r.driver)
    ensures Invocations(r.trace) == Held(d.callback)
    ensures EndsWith(r.trace, [ClearAck, SetStop])
  {
    var f := FinishTransferWithResult(d, Pass);
    Bracketed(ClearTransferComplete(Receive), f.trace, ClearAck, SetStop);
    Effect(f.driver, [ClearTransferComplete(Receive)] + f.trace + [ClearAck, SetStop])
  }

  /** A completed read calls the held callback with success and nothing
      else, before it issues STOP. */
  lemma RxCompleteOrder(d: Driver)
    requires d.callback.Some?
    ensures var t := RxComplete(d).trace;
      && InvokesOnly(t, d.callback.value, Pass)
      && AllBefore(t, Invoke(d.callback.value, Pass), SetStop)
  {
    var c := d.callback.value;
    var f := FinishTransferWithResult(d, Pass);
    FinishOrder(d, Pass);
    InvokesOnlyFrame([ClearTransferComplete(Receive)], f.trace, [ClearAck, SetStop], c, Pass);
    AllBeforeAppend([ClearTransferComplete(Receive)] + f.trace, [ClearAck, SetStop], Invoke(c, Pass), SetStop);
  }

  /** Transfer-error branch shared by both streams: clear the flag, then
      finalise with `TransferError`, which calls the held callback with that
      error and nothing else, and issues no STOP. */
  function TransferFailed(d: Driver, side: Side): (r: Effect)
    ensures Ended(r.driver)
    ensures Valid(d.tx) && Valid(d.rx) ==> Quiescent(r.driver)
    ensures Invocations(r.trace) == Held(d.callback)
    ensures SetStop !in r.trace
    ensures d.callback.Some? ==> InvokesOnly(r.trace, d.callback.value, Fail(TransferError))
    ensures StartsNothing(r.trace)
  {
    var f := FinishTransferWithResult(d, Fail(TransferError));
    assert Invocations([ClearTransferError(side)]) == 0;
    FinishOrder(d, Fail(TransferError));
    if d.callback.Some? then
      InvokesOnlyAfter([ClearTransferError(side)], f.trace, d.callback.value, Fail(TransferError));
      Effect(f.driver, [ClearTransferError(side)] + f.trace)
    else
      InvocationsAppend([ClearTransferError(side)], f.trace);
      Effect(f.driver, [ClearTransferError(side)] + f.trace)
  }

  /** `handle_dma_interrupt`, as written. The transmit transfer takes
      priority: while it exists the receive flags are not looked at. In each
      stream a FIFO error only clears its flag; a transfer error finalises
      with `TransferError`; transfer complete advances the transaction. */
  function HandleDmaInterrupt(d: Driver, ev: DmaEvent): (r: Step<()>)
    ensures r.Panicked? <==>
              && d.tx.transfer.Some? && !ev.tx.fifoError && !ev.tx.transferError && ev.tx.transferComplete
              && d.rx.transfer.Some? && PrepareRead(d.address, d.rxLen, ev.restart).outcome.Fail?
    ensures r.Panicked? ==> Invocations(r.trace) == Held(d.callback)
    ensures r.Returned? ==> Invocations(r.trace) + Held(r.driver.callback) <= Held(d.callback)
    ensures Inv(d) && r.Returned? ==> Inv(r.driver)
  {
    if d.tx.transfer.Some? then
      if ev.tx.fifoError then Returned(d, [ClearFifoError(Transmit)], ())
      else if ev.tx.transferError then
        var f := TransferFailed(d, Transmit);
        Returned(f.driver, f.trace, ())
      else if ev.tx.transferComplete then TxComplete(d, ev.restart)
      else Returned(d, [], ())
    else HandleRx(d, ev.rx)
  }

  /** The receive half of the DMA interrupt, reached only when no transmit
      transfer exists. */
  function HandleRx(d: Driver, flags: Flags): (r: Step<()>)
    ensures r.Returned?
    ensures Invocations(r.trace) + Held(r.driver.callback) <= Held(d.callback)
    ensures d.rx.transfer.None? ==> r == Returned(d, [], ())
    ensures flags.fifoError ==> r.driver == d && Invocations(r.trace) == 0
    ensures d.tx.transfer.None? && Inv(d) ==> Inv(r.driver)
  {
    if d.rx.transfer.Some? then
      if flags.fifoError then Returned(d, [ClearFifoError(Receive)], ())
      else if flags.transferError then
        var f := TransferFailed(d, Receive);
        Returned(f.driver, f.trace, ())
      else if flags.transferComplete then
        var f := RxComplete(d);
        Returned(f.driver, f.trace, ())
      else Returned(d, [], ())
    else Returned(d, [], ())
  }

  /** `handle_dma_interrupt` with the restart failure handled. */
  function HandleDmaInterruptCorrected(d: Driver, ev: DmaEvent): (r: Effect)
    ensures Invocations(r.trace) + Held(r.driver.callback) <= Held(d.callback)
    ensures Inv(d) ==> Inv(r.driver)
  {
    if d.tx.transfer.Some? then
      if ev.tx.fifoError then Effect(d, [ClearFifoError(Transmit)])
      else if ev.tx.transferError then TransferFailed(d, Transmit)
      else if ev.tx.transferComplete then TxCompleteCorrected(d, ev.restart)
      else Effect(d, [])
    else
      var s := HandleRx(d, ev.rx);
      Effect(s.driver, s.trace)
  }

  /** `handle_error_interrupt`: reads and clears the bus error flags (the
      input `flags`); on an error, finalises the transaction with it. */
  function HandleErrorInterrupt(d: Driver, flags: Outcome<BusError>): (r: Effect)
    ensures flags.Pass? ==> r == Effect(d, [])
    ensures flags.Fail? ==>
              && Ended(r.driver) && Invocations(r.trace) == Held(d.callback)
              && (SetStop in r.trace <==> flags.error.NoAcknowledge?)
    ensures flags.Fail? && d.callback.Some? ==>
              InvokesOnly(r.trace, d.callback.value, Fail(I2CError(flags.error)))
    ensures StartsNothing(r.trace)
    ensures Inv(d) ==> Inv(r.driver)
  {
    match flags
    case Pass => Effect(d, [])
    case Fail(e) =>
      FinishOrder(d, Fail(I2CError(e)));
      FinishTransferWithResult(d, Fail(I2CError(e)))
  }

  // ---------------------------------------------------------------------
  // Blocking fallback
  // ---------------------------------------------------------------------

  /** The blocking `read`, `write` and `write_read`: refused while busy;
      otherwise the blocking driver runs `op` to the outcome `underlying`,
      and a NACK is followed by STOP before it is reported. */
  function BlockingTransfer(op: BlockingOp, busy: bool, underlying: Outcome<BusError>): (r: Reply)
    ensures busy ==> r == Reply([], WouldBlock)
    ensures !busy ==> |r.trace| > 0 && r.trace[0] == Delegate(op)
    ensures !busy && underlying.Pass? ==> r.value == NbOk
    ensures !busy && underlying.Fail? ==> r.value == Other(underlying.error)
    ensures SetStop in r.trace <==> !busy && underlying.Fail? && underlying.error.NoAcknowledge?
    ensures Invocations(r.trace) == 0
  {
    var gate := BusyRes(busy);
    if gate.WouldBlock? then Reply([], gate)
    else
      match underlying
      case Pass => Reply([Delegate(op)], NbOk)
      case Fail(e) =>
        if e.NoAcknowledge? then
          InvocationsZero([Delegate(op), SetStop]);
          Reply([Delegate(op), SetStop], Other(e))
        else Reply([Delegate(op)], Other(e))
  }
}

=== FILE: handlers.dfy ===
/** Properties of the individual handlers that relate several calls or
    describe one branch of the DMA interrupt. */
module HandlerProperties {
  import opened I2cTypes
  import opened Slots
  import opened BusSequencing
  import opened DmaDriver

  /** Calling the callback a second time does nothing: the first call
      consumed it. */
  lemma CallCallbackTwice(d: Driver, first: CallbackResult, second: CallbackResult)
    ensures var once := CallCallbackOnce(d, first);
      CallCallbackOnce(once.driver, second) == Effect(once.driver, [])
  {
  }

  /** Finalising twice calls the callback at most once in total, and the
      second finalisation leaves the driver as the first one did. */
  lemma FinishTwice(d: Driver, first: CallbackResult, second: CallbackResult)
    ensures var f1 := FinishTransferWithResult(d, first);
      var f2 := FinishTransferWithResult(f1.driver, second);
      && f2.driver == f1.driver
      && Invocations(f2.trace) == 0
      && Invocations(f1.trace + f2.trace) <= 1
  {
    var f1 := FinishTransferWithResult(d, first);
    var f2 := FinishTransferWithResult(f1.driver, second);
    InvocationsAppend(f1.trace, f2.trace);
  }

  /** While a transmit transfer exists, the receive flags do not influence
      the DMA interrupt. */
  lemma TransmitTakesPriority(d: Driver, ev: DmaEvent, rxFlags: Flags)
    requires d.tx.transfer.Some?
    ensures HandleDmaInterrupt(d, ev) == HandleDmaInterrupt(d, ev.(rx := rxFlags))
  {
  }

  /** Without a transmit transfer the restart inputs and transmit flags do
      not influence the DMA interrupt. */
  lemma ReceiveIgnoresTransmitFlags(d: Driver, ev: DmaEvent, txFlags: Flags, restart: BusReplies)
    requires d.tx.transfer.None?
    ensures HandleDmaInterrupt(d, ev) == HandleDmaInterrupt(d, ev.(tx := txFlags, restart := restart))
  {
  }

  /** A FIFO error on the stream being looked at only clears its flag. */
  lemma FifoErrorOnlyClears(d: Driver, ev: DmaEvent, side: Side)
    requires side == Transmit ==> d.tx.transfer.Some? && ev.tx.fifoError
    requires side == Receive ==> d.tx.transfer.None? && d.rx.transfer.Some? && ev.rx.fifoError
    ensures HandleDmaInterrupt(d, ev) == Returned(d, [ClearFifoError(side)], ())
  {
  }

  /** Transmit complete with a receive pending: the transmit slot goes
      idle, the callback is kept and not called, and the receive transfer
      is started last. */
  lemma TransmitCompleteStartsPendingRead(d: Driver, ev: DmaEvent)
    requires d.tx.transfer.Some? && !ev.tx.fifoError && !ev.tx.transferError && ev.tx.transferComplete
    requires d.rx.transfer.Some? && ev.restart.start.Pass? && ev.restart.address.Pass?
    ensures var r := HandleDmaInterrupt(d, ev);
      && r.Returned? && Idle(r.driver.tx) && r.driver.callback == d.callback
      && Invocations(r.trace) == 0
      && r.driver.rx.transfer == Some(d.rx.transfer.value.(started := true))
      && EndsWith(r.trace, [StartRx])
  {
    var d1 := DestroyTransfer(d, Transmit);
    var p := PrepareRead(d1.address, d1.rxLen, ev.restart);
    assert HandleDmaInterrupt(d, ev) == StartPreparedRead(d1, p);
  }

  /** The restart for the pending read does not stop the bus, and clears
      ACK exactly when the remembered receive length is at most one byte. */
  lemma TransmitCompleteRestartsBus(d: Driver, ev: DmaEvent)
    requires d.tx.transfer.Some? && !ev.tx.fifoError && !ev.tx.transferError && ev.tx.transferComplete
    requires d.rx.transfer.Some? && ev.restart.start.Pass? && ev.restart.address.Pass?
    ensures var t := HandleDmaInterrupt(d, ev).trace;
      && SetStop !in t
      && (ClearAck in t <==> d.rxLen <= 1)
      && t == [ClearTransferComplete(Transmit), WaitBtf] + PrepareRead(d.address, d.rxLen, ev.restart).trace + [StartRx]
  {
    var d1 := DestroyTransfer(d, Transmit);
    var p := PrepareRead(d1.address, d1.rxLen, ev.restart);
    PrepareReadOrder(d1.address, d1.rxLen, ev.restart);
    RestartHeadQuiet(p.trace);
    assert HandleDmaInterrupt(d, ev).trace == [ClearTransferComplete(Transmit), WaitBtf] + p.trace + [StartRx];
  }

  /** Transmit complete with nothing to read: finalise with success, then
      STOP; the callback runs before STOP is issued. */
  lemma TransmitCompleteFinishesWrite(d: Driver, ev: DmaEvent)
    requires Inv(d)
    requires d.tx.transfer.Some? && !ev.tx.fifoError && !ev.tx.transferError && ev.tx.transferComplete
    requires d.rx.transfer.None?
    ensures var r := HandleDmaInterrupt(d, ev);
      && r.Returned? && Quiescent(r.driver)
      && Invocations(r.trace) == Held(d.callback)
      && (d.callback.Some? ==> InvokesOnly(r.trace, d.callback.value, Pass))
      && (d.callback.Some? ==> AllBefore(r.trace, Invoke(d.callback.value, Pass), SetStop))
      && r.trace[|r.trace| - 1] == SetStop
  {
    var w := WriteDone(DestroyTransfer(d, Transmit));
    assert HandleDmaInterrupt(d, ev) == Returned(w.driver, w.trace, ());
    if d.callback.Some? {
      WriteDoneOrder(DestroyTransfer(d, Transmit));
    }
  }

  /** Receive complete: finalise with success, then clear ACK and STOP. */
  lemma ReceiveCompleteFinishesRead(d: Driver, ev: DmaEvent)
    requires Inv(d)
    requires d.tx.transfer.None? && d.rx.transfer.Some?
    requires !ev.rx.fifoError && !ev.rx.transferError && ev.rx.transferComplete
    ensures var r := HandleDmaInterrupt(d, ev);
      && r.Returned? && Quiescent(r.driver)
      && Invocations(r.trace) == Held(d.callback)
      && (d.callback.Some? ==> Invoke(d.callback.value, Pass) in r.trace)
      && (d.callback.Some? ==> AllBefore(r.trace, Invoke(d.callback.value, Pass), SetStop))
      && r.trace[|r.trace| - 2..] == [ClearAck, SetStop]
  {
    if d.callback.Some? {
      RxCompleteOrder(d);
    }
  }

  /** A transfer error on the stream being looked at finalises with
      `TransferError`, without a STOP. */
  lemma TransferErrorFinalises(d: Driver, ev: DmaEvent)
    requires Inv(d)
    requires (d.tx.transfer.Some? && !ev.tx.fifoError && ev.tx.transferError) ||
             (d.tx.transfer.None? && d.rx.transfer.Some? && !ev.rx.fifoError && ev.rx.transferError)
    ensures var r := HandleDmaInterrupt(d, ev);
      && r.Returned? && Quiescent(r.driver)
      && Invocations(r.trace) == Held(d.callback)
      && (d.callback.Some? ==> Invoke(d.callback.value, Fail(TransferError)) in r.trace)
      && SetStop !in r.trace
  {
    if d.callback.Some? {
      FinishOrder(d, Fail(TransferError));
    }
  }

  /** The hazard of the restart: when preparing the read fails,
      finalisation has already called the callback with the error and
      released the receive transfer, so the unwrap that starts the receive
      transfer has no transfer to unwrap and the handler panics, after the
      callback has been told about the error. */
  lemma RestartFailureUnwrapsNothing(d: Driver, ev: DmaEvent)
    requires d.tx.transfer.Some? && !ev.tx.fifoError && !ev.tx.transferError && ev.tx.transferComplete
    requires d.rx.transfer.Some?
    requires ev.restart.start.Fail? || ev.restart.address.Fail?
    ensures var d1 := DestroyTransfer(d, Transmit);
      var e := PrepareRead(d.address, d.rxLen, ev.restart).outcome;
      && e.Fail?
      && !FinishTransferWithResult(d1, Fail(I2CError(e.error))).driver.rx.transfer.Some?
    ensures HandleDmaInterrupt(d, ev).Panicked?
    ensures Invocations(HandleDmaInterrupt(d, ev).trace) == Held(d.callback)
    ensures d.callback.Some? ==>
              InvokesOnly(HandleDmaInterrupt(d, ev).trace, d.callback.value,
                          Fail(I2CError(PrepareRead(d.address, d.rxLen, ev.restart).outcome.error)))
  {
    if d.callback.Some? {
      var d1 := DestroyTransfer(d, Transmit);
      var p := PrepareRead(d1.address, d1.rxLen, ev.restart);
      var res := Fail(I2CError(p.outcome.error));
      var head := [ClearTransferComplete(Transmit), WaitBtf] + p.trace;
      RestartHeadQuiet(p.trace);
      FinishOrder(d1, res);
      InvokesOnlyAfter(head, FinishTransferWithResult(d1, res).trace, d.callback.value, res);
      assert HandleDmaInterrupt(d, ev).trace == head + FinishTransferWithResult(d1, res).trace;
    }
  }

  /** The corrected handler does what the as-written one does whenever the
      latter does not panic. */
  lemma CorrectedAgreesWithoutPanic(d: Driver, ev: DmaEvent)
    requires HandleDmaInterrupt(d, ev).Returned?
    ensures var r := HandleDmaInterrupt(d, ev);
      HandleDmaInterruptCorrected(d, ev) == Effect(r.driver, r.trace)
  {
    if d.tx.transfer.Some? && !ev.tx.fifoError && !ev.tx.transferError && ev.tx.transferComplete
       && d.rx.transfer.Some? {
      var d1 := DestroyTransfer(d, Transmit);
      var p := PrepareRead(d1.address, d1.rxLen, ev.restart);
      assert p.outcome.Pass?;
      assert RestartForRead(d1, ev.restart).trace == [ClearTransferComplete(Transmit), WaitBtf] + p.trace + [StartRx];
    }
  }

  /** Where the as-written handler panics, the corrected one ends the
      transaction: the driver is ready for a new one, the callback got
      the preparation error and nothing else, and the receive transfer
      never started. */
  lemma CorrectedRestartFailureEndsTransaction(d: Driver, ev: DmaEvent)
    requires Inv(d)
    requires HandleDmaInterrupt(d, ev).Panicked?
    ensures var r := HandleDmaInterruptCorrected(d, ev);
      var e := PrepareRead(d.address, d.rxLen, ev.restart).outcome;
      && e.Fail?
      && Quiescent(r.driver)
      && Invocations(r.trace) == Held(d.callback)
      && StartRx !in r.trace
      && (SetStop in r.trace <==> e.error.NoAcknowledge?)
      && (d.callback.Some? ==> InvokesOnly(r.trace, d.callback.value, Fail(I2CError(e.error))))
  {
    var d1 := DestroyTransfer(d, Transmit);
    var p := PrepareRead(d1.address, d1.rxLen, ev.restart);
    var res := Fail(I2CError(p.outcome.error));
    var g := FinishTransferWithResult(d1, res);
    var head := [ClearTransferComplete(Transmit), WaitBtf] + p.trace;
    RestartHeadQuiet(p.trace);
    assert HandleDmaInterruptCorrected(d, ev) == StartPreparedReadCorrected(d1, p);
    assert StartPreparedReadCorrected(d1, p).trace == head + g.trace;
    if d.callback.Some? {
      FinishOrder(d1, res);
      InvokesOnlyAfter(head, g.trace, d.callback.value, res);
    }
  }

  /** The DMA interrupt calls no callback but the one the driver held. */
  lemma DmaInterruptCallsHeld(d: Driver, ev: DmaEvent)
    ensures CallsFrom(HandleDmaInterrupt(d, ev).trace, Callbacks(d.callback))
  {
    var r := HandleDmaInterrupt(d, ev);
    var cs := Callbacks(d.callback);
    if Invocations(r.trace) == 0 {
      SilentCallsFrom(r.trace, cs);
    } else if d.tx.transfer.Some? {
      var c := d.callback.value;
      if ev.tx.fifoError {
      } else if ev.tx.transferError {
        InvokesOnlyCallsFrom(r.trace, c, Fail(TransferError), cs);
      } else if d.rx.transfer.None? {
        var d1 := DestroyTransfer(d, Transmit);
        WriteDoneOrder(d1);
        InvokesOnlyCallsFrom(r.trace, c, Pass, cs);
      } else {
        var res := Fail(I2CError(PrepareRead(d.address, d.rxLen, ev.restart).outcome.error));
        RestartFailureUnwrapsNothing(d, ev);
        InvokesOnlyCallsFrom(r.trace, c, res, cs);
      }
    } else {
      var c := d.callback.value;
      if ev.rx.transferError {
        InvokesOnlyCallsFrom(r.trace, c, Fail(TransferError), cs);
      } else {
        RxCompleteOrder(d);
        InvokesOnlyCallsFrom(r.trace, c, Pass, cs);
      }
    }
  }
}

=== FILE: runs.dfy ===
/** Sequences of calls and interrupts. A run feeds events one at a time to
    the driver (each handler call is atomic) and stops at the first panic.
    The properties here relate whole runs: the callback budget and the
    driver invariant. */
module DriverRuns {
  import opened I2cTypes
  import opened Slots
  import opened BusSequencing
  import opened DmaDriver
  import opened HandlerProperties

  /** One call into the driver, together with the hardware inputs it sees. */
  datatype Event =
    | WriteDmaCall(addr: u8, bytes: Buffer, callback: Option<Callback>, busy: bool, replies: BusReplies)
    | ReadDmaCall(addr: u8, buf: Buffer, callback: Option<Callback>, busy: bool, replies: BusReplies)
    | WriteReadDmaCall(addr: u8, bytes: Buffer, buf: Buffer, callback: Option<Callback>,
                       busy: bool, replies: BusReplies)
    | DmaInterrupt(ev: DmaEvent)
    | ErrorInterrupt(flags: Outcome<BusError>)
    | BlockingCall(op: BlockingOp, busy: bool, underlying: Outcome<BusError>)

  /** The driver after some events (`None` once it has panicked) and
      everything it did. */
  datatype Machine = Machine(state: Option<Driver>, trace: seq<Action>)

  function Lift<R>(s: Step<R>): Machine {
    match s
    case Returned(d, t, _) => Machine(Some(d), t)
    case Panicked(t) => Machine(None, t)
  }

  /** Dispatches one event to the handler it names. */
  function Apply(d: Driver, e: Event): Machine {
    match e
    case WriteDmaCall(a, b, c, busy, rs) => Lift(WriteDma(d, a, b, c, busy, rs))
    case ReadDmaCall(a, b, c, busy, rs) => Lift(ReadDma(d, a, b, c, busy, rs))
    case WriteReadDmaCall(a, b, f, c, busy, rs) => Lift(WriteReadDma(d, a, b, f, c, busy, rs))
    case DmaInterrupt(ev) => Lift(HandleDmaInterrupt(d, ev))
    case ErrorInterrupt(flags) =>
      var r := HandleErrorInterrupt(d, flags);
      Machine(Some(r.driver), r.trace)
    case BlockingCall(op, busy, u) => Machine(Some(d), BlockingTransfer(op, busy, u).trace)
  }

  /** Applies the events in order, stopping at a panic. */
  function Run(d: Driver, es: seq<Event>): Machine
    decreases |es|
  {
    if |es| == 0 then Machine(Some(d), [])
    else
      var m := Apply(d, es[0]);
      match m.state
      case None => m
      case Some(d1) =>
        var rest := Run(d1, es[1..]);
        Machine(rest.state, m.trace + rest.trace)
  }

  /** Callbacks an event hands to the driver (an upper bound: one handed
      to a call that then panics is counted too). */
  function Installs(e: Event): nat {
    match e
    case WriteDmaCall(_, _, c, busy, _) => if busy then 0 else Held(c)
    case ReadDmaCall(_, _, c, busy, _) => if busy then 0 else Held(c)
    case WriteReadDmaCall(_, _, _, c, busy, _) => if busy then 0 else Held(c)
    case _ => 0
  }

  function TotalInstalls(es: seq<Event>): nat
    decreases |es|
  {
    if |es| == 0 then 0 else Installs(es[0]) + TotalInstalls(es[1..])
  }

  function HeldBy(m: Machine): nat {
    if m.state.Some? then Held(m.state.value.callback) else 0
  }

  /** One event calls callbacks at most as often as callbacks were held
      before it or handed over with it, counting the one still held after. */
  lemma ApplyCallbackBudget(d: Driver, e: Event)
    ensures Invocations(Apply(d, e).trace) + HeldBy(Apply(d, e)) <= Held(d.callback) + Installs(e)
  {
    match e
    case WriteDmaCall(a, b, c, busy, rs) =>
    case ReadDmaCall(a, b, c, busy, rs) =>
    case WriteReadDmaCall(a, b, f, c, busy, rs) =>
    case DmaInterrupt(ev) =>
    case ErrorInterrupt(flags) =>
    case BlockingCall(op, busy, u) =>
  }

  /** Over a whole run, the number of callback invocations, plus one for a
      callback still held at the end, is at most the number of callbacks
      held at the start or handed to entry points. */
  lemma {:induction false} RunCallbackBudget(d: Driver, es: seq<Event>)
    ensures Invocations(Run(d, es).trace) + HeldBy(Run(d, es)) <= Held(d.callback) + TotalInstalls(es)
    decreases |es|
  {
    if |es| > 0 {
      var m := Apply(d, es[0]);
      ApplyCallbackBudget(d, es[0]);
      if m.state.Some? {
        var rest := Run(m.state.value, es[1..]);
        RunCallbackBudget(m.state.value, es[1..]);
        InvocationsAppend(m.trace, rest.trace);
      }
    }
  }

  /** The callbacks an event may call: the one the driver held before it
      and, for an entry point that goes ahead, the one handed over. */
  function Offered(d: Driver, e: Event): set<Callback> {
    Callbacks(d.callback) +
      match e
      case WriteDmaCall(_, _, c, busy, _) => if busy then {} else Callbacks(c)
      case ReadDmaCall(_, _, c, busy, _) => if busy then {} else Callbacks(c)
      case WriteReadDmaCall(_, _, _, c, busy, _) => if busy then {} else Callbacks(c)
      case _ => {}
  }

  /** One event calls at most one callback, once, and only one the driver
      held or the event handed over. */
  lemma ApplyCallsOnce(d: Driver, e: Event)
    ensures Invocations(Apply(d, e).trace) <= 1
    ensures CallsFrom(Apply(d, e).trace, Offered(d, e))
  {
    var t := Apply(d, e).trace;
    var cs := Offered(d, e);
    if Invocations(t) == 0 {
      SilentCallsFrom(t, cs);
    } else {
      match e
      case WriteDmaCall(a, b, c, busy, rs) =>
        WriteDmaFails(d, a, b, c, rs);
        InvokesOnlyCallsFrom(t, c.value, Fail(I2CError(WriteDma(d, a, b, c, busy, rs).value.error)), cs);
      case ReadDmaCall(a, b, c, busy, rs) =>
        ReadDmaFails(d, a, b, c, rs);
        InvokesOnlyCallsFrom(t, c.value, Fail(I2CError(ReadDma(d, a, b, c, busy, rs).value.error)), cs);
      case WriteReadDmaCall(a, b, f, c, busy, rs) =>
        WriteReadDmaFails(d, a, b, f, c, rs);
        InvokesOnlyCallsFrom(t, c.value, Fail(I2CError(WriteReadDma(d, a, b, f, c, busy, rs).value.error)), cs);
      case DmaInterrupt(ev) =>
        DmaInterruptCallsHeld(d, ev);
      case ErrorInterrupt(flags) =>
        InvokesOnlyCallsFrom(t, d.callback.value, Fail(I2CError(flags.error)), cs);
      case BlockingCall(op, busy, u) =>
    }
  }

  /** The receive transfer of a write-then-read, waiting unstarted, is
      started only by the DMA interrupt reporting transmit complete: no
      entry point, error interrupt, transfer error, FIFO error or blocking
      call starts it. */
  lemma PendingReadStartsOnlyOnTxComplete(d: Driver, e: Event)
    requires Inv(d) && d.rx.transfer.Some? && !d.rx.transfer.value.started
    ensures StartRx in Apply(d, e).trace ==>
              e.DmaInterrupt? && !e.ev.tx.fifoError && !e.ev.tx.transferError && e.ev.tx.transferComplete
  {
    match e
    case WriteDmaCall(a, b, c, busy, rs) =>
    case ReadDmaCall(a, b, c, busy, rs) =>
    case WriteReadDmaCall(a, b, f, c, busy, rs) =>
    case DmaInterrupt(ev) =>
      if ev.tx.transferError && !ev.tx.fifoError {
        assert StartsNothing(TransferFailed(d, Transmit).trace);
      }
    case ErrorInterrupt(flags) =>
      assert StartsNothing(HandleErrorInterrupt(d, flags).trace);
    case BlockingCall(op, busy, u) =>
  }

  /** A busy bus turns every entry point and blocking call away without
      any effect. */
  lemma BusyRejects(d: Driver, a: u8, b: Buffer, f: Buffer, c: Option<Callback>, rs: BusReplies,
                    op: BlockingOp, u: Outcome<BusError>)
    ensures Apply(d, WriteDmaCall(a, b, c, true, rs)) == Machine(Some(d), [])
    ensures Apply(d, ReadDmaCall(a, b, c, true, rs)) == Machine(Some(d), [])
    ensures Apply(d, WriteReadDmaCall(a, b, f, c, true, rs)) == Machine(Some(d), [])
    ensures Apply(d, BlockingCall(op, true, u)) == Machine(Some(d), [])
  {
  }

  /** Every event keeps the driver invariant. */
  lemma ApplyPreservesInv(d: Driver, e: Event)
    requires Inv(d)
    ensures Apply(d, e).state.Some? ==> Inv(Apply(d, e).state.value)
  {
  }

  /** Whatever the hardware does, a run from a state satisfying the
      invariant only passes through states satisfying it. */
  lemma {:induction false} RunPreservesInv(d: Driver, es: seq<Event>)
    requires Inv(d)
    ensures Run(d, es).state.Some? ==> Inv(Run(d, es).state.value)
    decreases |es|
  {
    if |es| > 0 {
      var m := Apply(d, es[0]);
      ApplyPreservesInv(d, es[0]);
      if m.state.Some? {
        RunPreservesInv(m.state.value, es[1..]);
      }
    }
  }

  /** Starting from `use_dma`, every state reached satisfies the invariant,
      and callbacks are called no more often than they were handed over. */
  lemma FromUseDma(txStream: Stream, rxStream: Stream, es: seq<Event>)
    ensures var m := Run(UseDma(txStream, rxStream), es);
      && (m.state.Some? ==> Inv(m.state.value))
      && Invocations(m.trace) + HeldBy(m) <= TotalInstalls(es)
  {
    RunPreservesInv(UseDma(txStream, rxStream), es);
    RunCallbackBudget(UseDma(txStream, rxStream), es);
  }
}

=== FILE: scenarios.dfy ===
/** Concrete transactions, each started from the state `use_dma` creates,
    with the exact actions every step performs. */
module Scenarios {
  import opened I2cTypes
  import opened Slots
  import opened BusSequencing
  import opened DmaDriver
  import opened DriverRuns

  const Start0: Driver := UseDma(Stream(0), Stream(1))
  const Cb: Callback := Callback(7)
  const AllAck: BusReplies := BusReplies(Pass, Pass)
  const NoFlags: Flags := Flags(false, false, false)
  const FifoError: Flags := Flags(true, false, false)
  const Complete: Flags := Flags(false, false, true)

  /** The driver while a write of two bytes is in flight. */
  const Writing: Driver :=
    Start0.(callback := Some(Cb), tx := Slot(None, None, Some(Transfer(Stream(0), Endpoint(Transmit), Buffer(2), true))))

  /** The driver while a one-byte read is in flight. */
  const Reading: Driver :=
    Start0.(callback := Some(Cb), rx := Slot(None, None, Some(Transfer(Stream(1), Endpoint(Receive), Buffer(1), true))))

  /** The driver after `write_read_dma` of four bytes then two bytes. */
  const WritingBeforeRead: Driver :=
    Driver(Some(Cb), 0x50, 2,
           Slot(None, None, Some(Transfer(Stream(0), Endpoint(Transmit), Buffer(4), true))),
           Slot(None, None, Some(Transfer(Stream(1), Endpoint(Receive), Buffer(2), false))))

  /** The same transaction once the restart has started the read. */
  const ReadingAfterWrite: Driver :=
    WritingBeforeRead.(tx := Start0.tx,
                       rx := Slot(None, None, Some(Transfer(Stream(1), Endpoint(Receive), Buffer(2), true))))

  /** `write_dma` of two bytes to 0x50: START, the address byte 0xA0, the
      ADDR clear, error interrupts on, the transmit stream started. */
  lemma WriteStarts()
    ensures WriteDma(Start0, 0x50, Buffer(2), Some(Cb), false, AllAck)
         == Returned(Writing, [EnableDmaRequests, SetStart, WriteDR(0xA0), ReadSR2, EnableErrorInterrupts, StartTx], NbOk)
  {
  }

  /** A FIFO error on the transmit stream only clears its flag. */
  lemma WriteFifoError()
    ensures HandleDmaInterrupt(Writing, DmaEvent(FifoError, NoFlags, AllAck))
         == Returned(Writing, [ClearFifoError(Transmit)], ())
  {
  }

  /** Transmit complete ends the write: the callback gets success, then
      the bus is released with STOP, and the driver is as `use_dma` left it. */
  lemma WriteCompletes()
    ensures HandleDmaInterrupt(Writing, DmaEvent(Complete, NoFlags, AllAck))
         == Returned(Start0, [ClearTransferComplete(Transmit)]
                             + ([DisableDmaRequests, DisableErrorInterrupts] + [Invoke(Cb, Pass)])
                             + [WaitBtf, SetStop], ())
  {
    assert StopPrefix(Pass) == [DisableDmaRequests, DisableErrorInterrupts];
  }

  /** The inputs of a one-byte read whose address is not acknowledged. */
  const AddressNacked: BusReplies := BusReplies(Pass, Fail(NoAcknowledge(Unknown)))

  /** A one-byte read whose address is not acknowledged: the NACK is seen
      while `read_dma` waits for the address, so the call itself returns an
      address NACK and leaves the driver as `use_dma` made it. */
  lemma ReadAddressNack()
    ensures var r := ReadDma(Start0, 0x50, Buffer(1), Some(Cb), false, AddressNacked);
      r.Returned? && r.driver == Start0 && r.value == Other(NoAcknowledge(Address))
  {
  }

  /** The same call issues STOP and calls back with the address NACK: it
      enables DMA requests, sends START and the read address, then
      finalises. */
  lemma ReadAddressNackTrace()
    ensures ReadDma(Start0, 0x50, Buffer(1), Some(Cb), false, AddressNacked).trace
         == [EnableDmaRequests] + [SetStart, SetAck, WriteDR(0xA1)]
            + ([DisableDmaRequests, DisableErrorInterrupts, SetStop]
               + [Invoke(Cb, Fail(I2CError(NoAcknowledge(Address))))])
  {
    var p := PrepareRead(0x50, 1, AddressNacked);
    assert p == Sequenced([SetStart, SetAck, WriteDR(0xA1)], Fail(NoAcknowledge(Address)));
    var res := Fail(I2CError(NoAcknowledge(Address)));
    var d1 := CreateTransfer(Start0, Receive, Buffer(1)).(callback := Some(Cb));
    assert StopPrefix(res) == [DisableDmaRequests, DisableErrorInterrupts, SetStop];
    assert CallCallbackOnce(d1, res).trace == [Invoke(Cb, res)];
    var f := [DisableDmaRequests, DisableErrorInterrupts, SetStop] + [Invoke(Cb, res)];
    assert FinishTransferWithResult(d1, res).trace == f;
    assert ReadDma(Start0, 0x50, Buffer(1), Some(Cb), false, AddressNacked) == Launch(d1, p, Receive);
    assert Launch(d1, p, Receive).trace == [EnableDmaRequests] + p.trace + f;
  }

  /** A one-byte read that starts: ACK is cleared before ADDR. */
  lemma ReadStarts()
    ensures ReadDma(Start0, 0x50, Buffer(1), Some(Cb), false, AllAck)
         == Returned(Reading, [EnableDmaRequests, SetStart, SetAck, WriteDR(0xA1), ClearAck, ReadSR2,
                               EnableErrorInterrupts, StartRx], NbOk)
  {
  }

  /** A NACK reported by the error interrupt while the read is running:
      the handler issues STOP, reports the NACK and releases the receive
      transfer. */
  lemma ReadDataNack()
    ensures HandleErrorInterrupt(Reading, Fail(NoAcknowledge(Unknown)))
         == Effect(Start0, [DisableDmaRequests, DisableErrorInterrupts, SetStop]
                           + [Invoke(Cb, Fail(I2CError(NoAcknowledge(Unknown))))])
  {
    assert StopPrefix(Fail(I2CError(NoAcknowledge(Unknown)))) == [DisableDmaRequests, DisableErrorInterrupts, SetStop];
  }

  /** `write_read_dma`: both transfers are created, only transmit starts. */
  lemma WriteReadStarts()
    ensures WriteReadDma(Start0, 0x50, Buffer(4), Buffer(2), Some(Cb), false, AllAck)
         == Returned(WritingBeforeRead, [EnableDmaRequests, SetStart, WriteDR(0xA0), ReadSR2,
                                         EnableErrorInterrupts, StartTx], NbOk)
  {
  }

  /** Transmit complete with a read pending: no callback, a repeated START
      for reading with ACK armed (two bytes, so ACK stays set), and the
      receive stream started. */
  lemma WriteReadRestarts()
    ensures HandleDmaInterrupt(WritingBeforeRead, DmaEvent(Complete, NoFlags, AllAck))
         == Returned(ReadingAfterWrite, [ClearTransferComplete(Transmit), WaitBtf]
                                        + [SetStart, SetAck, WriteDR(0xA1), ReadSR2, EnableErrorInterrupts]
                                        + [StartRx], ())
  {
    var d1 := DestroyTransfer(WritingBeforeRead, Transmit);
    var p := PrepareRead(0x50, 2, AllAck);
    assert p == Sequenced([SetStart, SetAck, WriteDR(0xA1), ReadSR2, EnableErrorInterrupts], Pass);
    assert HandleDmaInterrupt(WritingBeforeRead, DmaEvent(Complete, NoFlags, AllAck)) == StartPreparedRead(d1, p);
  }

  /** Receive complete: the one callback, then ACK cleared and STOP. */
  lemma WriteReadCompletes()
    ensures HandleDmaInterrupt(ReadingAfterWrite, DmaEvent(NoFlags, Complete, AllAck))
         == Returned(Start0.(address := 0x50, rxLen := 2),
                     [ClearTransferComplete(Receive)]
                     + ([DisableDmaRequests, DisableErrorInterrupts] + [Invoke(Cb, Pass)])
                     + [ClearAck, SetStop], ())
  {
    assert StopPrefix(Pass) == [DisableDmaRequests, DisableErrorInterrupts];
    var f := RxComplete(ReadingAfterWrite);
    assert HandleDmaInterrupt(ReadingAfterWrite, DmaEvent(NoFlags, Complete, AllAck)) == Returned(f.driver, f.trace, ());
  }

  /** The restart hazard on a concrete input: arbitration is lost while the
      restart waits for START. The callback is told about the loss, and the
      handler then panics on the released receive transfer. */
  lemma WriteReadRestartLost()
    ensures HandleDmaInterrupt(WritingBeforeRead, DmaEvent(Complete, NoFlags, BusReplies(Fail(ArbitrationLoss), Pass)))
         == Panicked([ClearTransferComplete(Transmit), WaitBtf] + [SetStart, SetAck]
                     + ([DisableDmaRequests, DisableErrorInterrupts] + [Invoke(Cb, Fail(I2CError(ArbitrationLoss)))]))
  {
    LostRestartSteps();
  }

  /** The same input under the corrected handler: the transaction ends with
      both slots idle and no callback held. */
  lemma WriteReadRestartLostCorrected()
    ensures HandleDmaInterruptCorrected(WritingBeforeRead, DmaEvent(Complete, NoFlags, BusReplies(Fail(ArbitrationLoss), Pass)))
         == Effect(Start0.(address := 0x50, rxLen := 2),
                   [ClearTransferComplete(Transmit), WaitBtf] + [SetStart, SetAck]
                   + ([DisableDmaRequests, DisableErrorInterrupts] + [Invoke(Cb, Fail(I2CError(ArbitrationLoss)))]))
  {
    LostRestartSteps();
  }

  /** The pieces both restart scenarios are made of: the failed read
      preparation and the finalisation that follows it. */
  lemma LostRestartSteps()
    ensures PrepareRead(0x50, 2, BusReplies(Fail(ArbitrationLoss), Pass))
         == Sequenced([SetStart, SetAck], Fail(ArbitrationLoss))
    ensures StopPrefix(Fail(I2CError(ArbitrationLoss))) == [DisableDmaRequests, DisableErrorInterrupts]
  {
  }
}

=== FILE: slots.dfy ===
/** The resource slots of the driver. Each direction owns a peripheral-side
    endpoint and a DMA stream while idle; creating a transfer moves both into a
    live transfer object, and destroying the transfer moves them back. */
module Slots {
  import opened I2cTypes

  /** The zero-sized peripheral-side endpoint (`Tx<I2C>` or `Rx<I2C>`). */
  datatype Endpoint = Endpoint(side: Side)

  /** A DMA stream, an opaque hardware token. */
  datatype Stream = Stream(id: nat)

  /** A caller buffer; its contents are irrelevant to the state machine. */
  datatype Buffer = Buffer(len: nat)

  /** A live DMA transfer: it owns the stream, the endpoint and the buffer. */
  datatype Transfer = Transfer(stream: Stream, endpoint: Endpoint, buffer: Buffer, started: bool)

  /** The three optional fields the driver keeps per direction
      (`tx`, `tx_stream`, `tx_transfer` and their receive twins). */
  datatype Slot = Slot(endpoint: Option<Endpoint>, stream: Option<Stream>, transfer: Option<Transfer>)

  /** Resources are home: no transfer exists. */
  predicate Idle(s: Slot) {
    s.endpoint.Some? && s.stream.Some? && s.transfer.None?
  }

  /** A transfer owns the resources. */
  predicate Active(s: Slot) {
    s.endpoint.None? && s.stream.None? && s.transfer.Some?
  }

  /** Exactly one owner of the endpoint and the stream. */
  predicate Valid(s: Slot) {
    Idle(s) || Active(s)
  }

  /** Moves the idle endpoint and stream into a new, not yet started transfer
      bound to `buf`. Both must be present. */
  function Create(s: Slot, buf: Buffer): (r: Slot)
    requires s.endpoint.Some? && s.stream.Some?
    ensures Active(r)
    ensures r.transfer.value.stream == s.stream.value
    ensures r.transfer.value.endpoint == s.endpoint.value
    ensures r.transfer.value.buffer == buf && !r.transfer.value.started
  {
    Slot(None, None, Some(Transfer(s.stream.value, s.endpoint.value, buf, false)))
  }

  /** Releases a transfer, handing its stream and endpoint back to the slot. */
  function Destroy(s: Slot): (r: Slot)
    requires s.transfer.Some?
    ensures Idle(r)
    ensures r.stream.value == s.transfer.value.stream
    ensures r.endpoint.value == s.transfer.value.endpoint
  {
    Slot(Some(s.transfer.value.endpoint), Some(s.transfer.value.stream), None)
  }

  /** Starts the DMA movement of an existing transfer. */
  function Start(s: Slot): (r: Slot)
    requires s.transfer.Some?
    ensures r.transfer == Some(s.transfer.value.(started := true))
    ensures r.endpoint == s.endpoint && r.stream == s.stream
  {
    s.(transfer := Some(s.transfer.value.(started := true)))
  }

  /** Creating a transfer on an idle slot and destroying it restores the slot. */
  lemma CreateThenDestroy(s: Slot, buf: Buffer)
    requires Idle(s)
    ensures Destroy(Create(s, buf)) == s
  {
  }

  /** Destroying a transfer that was never started and creating one over the
      same buffer restores the transfer. */
  lemma DestroyThenCreate(s: Slot)
    requires Active(s) && !s.transfer.value.started
    ensures Create(Destroy(s), s.transfer.value.buffer) == s
  {
  }

  /** Starting a transfer does not change what destroying it gives back. */
  lemma StartThenDestroy(s: Slot)
    requires s.transfer.Some?
    ensures Destroy(Start(s)) == Destroy(s)
  {
  }
}

=== FILE: types.dfy ===
/** Shared vocabulary of the I2C-over-DMA driver model: integer widths, the
    unit-valued result type, the error taxonomy, callbacks, and the actions
    the driver performs on the peripheral (its observable output). */
module I2cTypes {

  /** An unsigned 8-bit value (Rust `u8`): slave addresses and data bytes. */
  newtype u8 = x: int | 0 <= x < 256

  datatype Option<+T> = None | Some(value: T)

  /** A result carrying no success value (Rust `Result<(), E>`). */
  datatype Outcome<+E> = Pass | Fail(error: E)

  /** Which phase of a transfer a NACK was observed in. */
  datatype NackSource = Unknown | Address | Data

  /** Error kinds of the underlying blocking driver. */
  datatype BusError =
    | Overrun
    | NoAcknowledge(source: NackSource)
    | Timeout
    | Bus
    | Crc
    | ArbitrationLoss

  /** Reclassification applied to errors seen while waiting for the address
      to be acknowledged: a NACK of unknown origin is an address NACK. */
  function NackAddr(e: BusError): (r: BusError)
    ensures r.NoAcknowledge? <==> e.NoAcknowledge?
    ensures e.NoAcknowledge? && e.source == Unknown ==> r == NoAcknowledge(Address)
    ensures !(e.NoAcknowledge? && e.source == Unknown) ==> r == e
  {
    match e
    case NoAcknowledge(Unknown) => NoAcknowledge(Address)
    case _ => e
  }

  /** The error reported to completion callbacks. */
  datatype DmaError = I2CError(bus: BusError) | TransferError

  /** What a completion callback receives. */
  type CallbackResult = Outcome<DmaError>

  /** True exactly for a not-acknowledged bus error delivered to a callback. */
  predicate IsNack(res: CallbackResult) {
    res.Fail? && res.error.I2CError? && res.error.bus.NoAcknowledge?
  }

  /** The non-blocking result of the public entry points (`nb::Result<(), Error>`). */
  datatype NbResult = NbOk | WouldBlock | Other(error: BusError)

  /** A user completion callback; only its identity matters to the model. */
  datatype Callback = Callback(id: nat)

  /** The two DMA directions, each with its own stream. */
  datatype Side = Transmit | Receive

  /** An operation of the underlying blocking driver. */
  datatype BlockingOp =
    | BlockingWrite(addr: u8, bytesLen: nat)
    | BlockingRead(addr: u8, bufLen: nat)
    | BlockingWriteRead(addr: u8, bytesLen: nat, bufLen: nat)

  /** One observable effect of the driver on the peripheral, the DMA engine
      or the user. */
  datatype Action =
    | SetStart                       // CR1.START := 1
    | SetAck                         // CR1.ACK := 1
    | ClearAck                       // CR1.ACK := 0
    | WriteDR(byte: nat)             // write to the data register
    | ReadSR2                        // status read that clears the ADDR condition
    | SetStop                        // CR1.STOP := 1
    | EnableDmaRequests              // CR2.DMAEN := 1
    | DisableDmaRequests             // CR2.DMAEN := 0
    | EnableErrorInterrupts          // CR2.ITERREN := 1
    | DisableErrorInterrupts         // CR2.ITERREN := 0
    | StartTx                        // start the transmit DMA transfer
    | StartRx                        // start the receive DMA transfer
    | ClearFifoError(side: Side)
    | ClearTransferError(side: Side)
    | ClearTransferComplete(side: Side)
    | WaitBtf                        // busy-wait for byte-transfer-finished
    | Delegate(op: BlockingOp)       // run a blocking transfer to completion
    | Invoke(callback: Callback, result: CallbackResult)

  /** Number of callback invocations in a trace. */
  function Invocations(t: seq<Action>): nat
  {
    if |t| == 0 then 0
    else (if t[0].Invoke? then 1 else 0) + Invocations(t[1..])
  }

  lemma {:induction false} InvocationsAppend(a: seq<Action>, b: seq<Action>)
    ensures Invocations(a + b) == Invocations(a) + Invocations(b)
    decreases |a|
  {
    if |a| == 0 {
      assert a + b == b;
    } else {
      assert (a + b)[1..] == a[1..] + b;
      InvocationsAppend(a[1..], b);
    }
  }

  /** A trace holds no invocation exactly when no element is one. */
  lemma {:induction false} InvocationsZero(t: seq<Action>)
    ensures Invocations(t) == 0 <==> forall i :: 0 <= i < |t| ==> !t[i].Invoke?
    decreases |t|
  {
    if |t| > 0 {
      InvocationsZero(t[1..]);
      assert forall i :: 1 <= i < |t| ==> t[i] == t[1..][i - 1];
    }
  }

  /** A trace that calls no callback, starts no transfer and does not stop
      the bus. */
  predicate Quiet(t: seq<Action>) {
    Invocations(t) == 0 && StartsNothing(t) && SetStop !in t
  }

  /** The trace starts no DMA transfer. */
  predicate StartsNothing(t: seq<Action>) {
    StartTx !in t && StartRx !in t
  }

  /** An action that neither calls a callback nor starts a transfer. */
  predicate Silent(a: Action) {
    !a.Invoke? && !a.StartTx? && !a.StartRx?
  }

  lemma QuietIntro(t: seq<Action>)
    requires forall i :: 0 <= i < |t| ==> !t[i].Invoke? && !t[i].StartTx? && !t[i].StartRx? && !t[i].SetStop?
    ensures Quiet(t)
  {
    InvocationsZero(t);
  }

  /** Joining two quiet traces gives a quiet trace. */
  lemma QuietAppend(t: seq<Action>, u: seq<Action>)
    requires Quiet(t) && Quiet(u)
    ensures Quiet(t + u)
  {
    InvocationsAppend(t, u);
  }

  /** Surrounding a trace with quiet actions keeps what it invokes. */
  lemma InvokesOnlyFrame(pre: seq<Action>, t: seq<Action>, post: seq<Action>, c: Callback, res: CallbackResult)
    requires Invocations(pre) == 0 && Invocations(post) == 0
    requires InvokesOnly(t, c, res)
    ensures InvokesOnly(pre + t + post, c, res)
    ensures Invocations(pre + t + post) == Invocations(t)
  {
    InvocationsZero(pre);
    InvocationsZero(post);
    InvocationsAppend(pre, t);
    InvocationsAppend(pre + t, post);
    var u := pre + t + post;
    forall i | 0 <= i < |u|
      ensures u[i].Invoke? ==> u[i] == Invoke(c, res)
    {
      if i < |pre| {
        assert u[i] == pre[i];
      } else if i < |pre| + |t| {
        assert u[i] == t[i - |pre|];
      } else {
        assert u[i] == post[i - |pre| - |t|];
      }
    }
    assert Invoke(c, res) in u;
  }

  /** Quiet actions in front of a trace keep what it invokes. */
  lemma InvokesOnlyAfter(pre: seq<Action>, t: seq<Action>, c: Callback, res: CallbackResult)
    requires Invocations(pre) == 0
    requires InvokesOnly(t, c, res)
    ensures InvokesOnly(pre + t, c, res)
    ensures Invocations(pre + t) == Invocations(t)
  {
    InvokesOnlyFrame(pre, t, [], c, res);
    assert pre + t + [] == pre + t;
  }

  /** Appending a trace without `a` after one without `b` keeps every `a`
      before every `b`. */
  lemma AllBeforeAppend(t: seq<Action>, u: seq<Action>, a: Action, b: Action)
    requires b !in t && a !in u
    ensures AllBefore(t + u, a, b)
  {
    var v := t + u;
    assert forall k :: 0 <= k < |t| ==> v[k] == t[k];
    assert forall k :: |t| <= k < |v| ==> v[k] == u[k - |t|];
  }

  /** The trace invokes `c` with `res`, and no callback with anything else. */
  predicate InvokesOnly(t: seq<Action>, c: Callback, res: CallbackResult) {
    && Invoke(c, res) in t
    && forall i :: 0 <= i < |t| && t[i].Invoke? ==> t[i] == Invoke(c, res)
  }

  /** The callbacks an optional callback names. */
  function Callbacks(c: Option<Callback>): (r: set<Callback>)
    ensures forall x :: x in r <==> c == Some(x)
  {
    if c.Some? then {c.value} else {}
  }

  /** Every callback `t` calls is one of `cs`. */
  predicate CallsFrom(t: seq<Action>, cs: set<Callback>) {
    forall i :: 0 <= i < |t| && t[i].Invoke? ==> t[i].callback in cs
  }

  /** A trace without invocations calls nothing outside any set. */
  lemma SilentCallsFrom(t: seq<Action>, cs: set<Callback>)
    requires Invocations(t) == 0
    ensures CallsFrom(t, cs)
  {
    InvocationsZero(t);
  }

  /** A trace that calls only `c` calls from any set holding `c`. */
  lemma InvokesOnlyCallsFrom(t: seq<Action>, c: Callback, res: CallbackResult, cs: set<Callback>)
    requires InvokesOnly(t, c, res) && c in cs
    ensures CallsFrom(t, cs)
  {
  }

  /** Every occurrence of `a` in `t` comes before every occurrence of `b`. */
  predicate AllBefore(t: seq<Action>, a: Action, b: Action) {
    forall i, j :: 0 <= i < |t| && 0 <= j < |t| && t[i] == a && t[j] == b ==> i < j
  }
}
